=== FILE: README.md ===
# Recruiting portal core, modelled in Dafny

This project models the small pieces of logic that the recruiting portal's
account service, its school roster endpoint and its web client actually
contain. Each piece is a pure function or a short method over immutable
datatypes, with contracts proved by Dafny.

- **Account service** (`app/main.py`). An in-memory map from e-mail address to user
  record, and three operations:
  - `register` refuses a known address with 400;
  - `login` refuses bad credentials with 401 before it refuses an unapproved user with 403;
  - `approve` refuses an unknown address with 404.
  
  Each operation returns its reply together with the next map, so the
  service is a state machine (`UserRegistry`).
- **Students by school** (`backend/app/main.py`). It tallies how often each address appears in
  the assigned and placed lists of all stored jobs. It then returns the parsed
  student profiles of the caller's school, each with its counts attached only when
  they are non-zero (`SchoolRoster`). The key-value store and its JSON values are
  modelled as the sequences a key scan returns. Each value is absent,
  malformed or a parsed record.
- **Web client**:
  - the registration check, request body and error text (`RegisterForm`);
  - the comma-separated skills parser (`CommaList`), used by the job form
    (`JobPosting`) and the student form (`StudentProfiles`);
  - the case-insensitive job search (`JobPosting`);
  - the per-user table edits, label-to-code lookup and save body (`AdminUsers`);
  - the activity log's admin gate and CSV text (`ActivityLog`);
  - the dashboard's role-filtered tiles (`Dashboard`);
  - the token-expiry route guard (`ProtectedRoute`);
  - the role-dependent navigation menu (`AdminMenu`).

The shared modules are listed below:
- `Seqs`: order-preserving filter, subsequence and counting.
- `Text`: the JavaScript string primitives `trim`, one-character `split`,
  `join`, ASCII `toLowerCase` and `includes`. `trim` strips exactly the
  ECMAScript whitespace and line-terminator code points.
- `Tokens`: JSON Web Tokens kept opaque. A token is either a well-formed token
  over a set of claims, whoever made it, or text the client treats as
  undecodable. The client does not check the signature, so a home-made token
  with role "admin" passes every client-side role check. A token whose payload
  is JSON `null` decodes without error. The route guard, dashboard and activity
  log then read a field of `null` inside a `try` and take their failure path,
  so for them it counts as undecodable.

## Model

| member | source | states |
|---|---|---|
| UserRegistry.Register | app/main.py:48-61 | A known address gives 400 "User already exists" and the store is unchanged. Otherwise exactly that address is added. Every other record is unchanged. The new record has the given names and school, role "user", approved false, and a digest that only the given password checks against. |
| UserRegistry.Login | app/main.py:64-77 | The store never changes. The reply is 401 exactly when the address is unknown or the password fails. It is 403 exactly when the password checks but the user is not approved. A token is issued exactly when both hold. The token decodes to sub = address, role = the stored role and exp = now + 3600. |
| UserRegistry.Approve | app/main.py:80-86 | An unknown address gives 404 and the store is unchanged. Otherwise the record's approved flag is true and none of its other fields change. The other records and the set of keys are unchanged. |
| UserRegistry.ApproveIdempotent | app/main.py:85 | Approving a second time gives the same reply and the same store as approving once. |
| UserRegistry.RegisterApproveLogin | app/main.py:50-76 | For a new address, register, then approve, then login with the same password issues a token for that address with role "user". |
| UserRegistry.RecordsPersist | app/main.py:48-86 | Over any sequence of requests, a registered address stays registered. Its record changes only in the approved flag. Once approved, it stays approved. |
| UserRegistry.RolesStayUser | app/main.py:53-60 | If every stored role is "user", that stays true over any sequence of requests. |
| SchoolRoster.StudentsBySchool | backend/app/main.py:7-65 | A missing account gives 404 and a malformed one gives 500. Otherwise the reply holds exactly the parsed students of the caller's school, in scan order. Two absent codes count as equal. Each entry copies the four profile fields. Each count key is present exactly when the address is listed at least once, and its value is the total number of listings across parsed jobs. |
| SchoolRoster.TallyJobs | backend/app/main.py:21-35 | After the job scan, each tally has a key exactly for the addresses listed at least once in its bucket. Its value is the number of listings across parsed jobs. Missing and malformed jobs are skipped. |
| SchoolRoster.CollectStudents | backend/app/main.py:37-63 | The student scan yields one entry per parsed student of the given school, in scan order, and no others. |
| SchoolRoster.TalliedEntry | backend/app/main.py:50-61 | When the tallies are exact, the entry built from them attaches a count exactly when the address is listed, and the count equals the number of listings. |
| SchoolRoster.AddAll | backend/app/main.py:32-35 | Each address's tally grows by its number of occurrences in the list, so duplicates count each time. Tallies stay positive. |
| SchoolRoster.OccurrencesAppend | backend/app/main.py:24-35 | Listing counts add up over concatenated scans. |
| SchoolRoster.UnparsedJobCountsNothing | backend/app/main.py:25-31 | A missing or malformed job changes neither count, wherever it appears in the scan. |
| SchoolRoster.OccurrencesPositiveIff | backend/app/main.py:58-61 | An address is counted in a bucket exactly when some parsed job lists it in that bucket. |
| SchoolRoster.SchoolStudentsExtend | backend/app/main.py:38-48 | Scanning one more student adds it to the school's list exactly when it parses and carries the caller's school code. |
| Text.Trim | frontend/src/RegisterForm.js:28-33 | The result is empty exactly when the input is all whitespace. It neither starts nor ends with whitespace. It is a contiguous slice of the input with only whitespace cut on either side. |
| Text.Split | frontend/src/JobPosting.js:55-58 | There is at least one piece, and no piece contains the separator. The first piece is a prefix of the string. There is exactly one piece exactly when the string has no separator. |
| Text.Join | frontend/src/ActivityLog.js:45 | No pieces join to "". Otherwise the first piece leads, and the length is the pieces' total length plus one separator per neighbouring pair. |
| Text.ToLower | frontend/src/JobPosting.js:99-103 | The length is kept, and each character is lower-cased on its own: ASCII capitals become small letters and every other character stays. |
| Text.Includes | frontend/src/JobPosting.js:101-103 | Only a query no longer than the string can be included. The empty query is always included. |
| Text.SplitFirstPiece | frontend/src/JobPosting.js:222 | The first piece of a split runs up to the first separator: it is the whole string, or a separator follows it. |
| Text.SplitSecondPiece | frontend/src/JobPosting.js:223 | When there is a second piece, the string is the first piece, one separator, the second piece, then either nothing or a separator and the rest. |
| Text.JoinSplit | frontend/src/JobPosting.js:55-58 | Joining the pieces of a split with the same separator gives the original string back. |
| Text.SplitJoin | frontend/src/ActivityLog.js:45 | Splitting a join of separator-free pieces gives the pieces back. |
| Text.IncludesIff | frontend/src/JobPosting.js:101-103 | `includes` holds exactly when the query occurs at some index of the string. |
| CommaList.Parse | frontend/src/JobPosting.js:55-58 | Each parsed item is non-empty, has no leading or trailing whitespace and has no comma. The items are an order-preserving subsequence of the trimmed comma-separated pieces. Their number is the number of pieces that are not blank. |
| CommaList.ParseJoin | frontend/src/StudentProfiles.js:54-58 | Parsing the comma-join of clean items gives the items back. Clean means non-empty, trimmed and comma-free. |
| RegisterForm.Set | frontend/src/RegisterForm.js:19-21 | The named field takes the new value. Every other field keeps its value. |
| RegisterForm.Submit | frontend/src/RegisterForm.js:27-47 | The result is "All fields are required", with no request, exactly when one of these holds: the address or a name is all whitespace; the password is empty; or the role is career or recruiter and the code is all whitespace. Otherwise the request carries the fields untrimmed, and omits the code exactly when it is the empty string. |
| RegisterForm.WhitespacePasswordAccepted | frontend/src/RegisterForm.js:31 | A password made only of whitespace passes the check and is sent as typed. |
| RegisterForm.CodeIrrelevantWithoutNeed | frontend/src/RegisterForm.js:32-33 | For a role other than career or recruiter, the code never changes whether the form is accepted. |
| RegisterForm.BlankCodeBlocksStaff | frontend/src/RegisterForm.js:32-35 | For career and recruiter, a blank code rejects the form whatever the other fields hold. |
| RegisterForm.ErrorText | frontend/src/RegisterForm.js:51-56 | A list detail is shown as its messages joined by ", ", with a missing message shown as nothing. An empty list shows nothing. A non-empty string detail is shown as itself. An absent or empty detail is shown as "Registration failed". |
| RegisterForm.ErrorTextReadsBack | frontend/src/RegisterForm.js:51-53 | When every message is non-empty, trimmed and comma-free, splitting the shown text at commas and trimming the pieces gives back exactly the messages, in order. |
| JobPosting.Set | frontend/src/JobPosting.js:42-44 | The named field takes the new value. Every other field keeps its value. |
| JobPosting.PayloadOf | frontend/src/JobPosting.js:50-63 | The text fields are sent as typed. The desired skills are exactly the comma-list parse of the field: clean items, in order, one per non-blank comma-separated piece. |
| JobPosting.AfterPost | frontend/src/JobPosting.js:46-78 | A successful post resets all six fields to "" and shows the success message. A failed one keeps the form and the cleared message. |
| JobPosting.FilterJobs | frontend/src/JobPosting.js:98-105 | The result is an order-preserving subsequence of the jobs. It keeps a job exactly when the lower-cased search text is in its lower-cased code, title or source. Its length is the number of matching jobs, so duplicated matches are all kept. |
| JobPosting.EmptySearchKeepsAll | frontend/src/JobPosting.js:99-104 | An empty search keeps every job. |
| JobPosting.SearchIgnoresCase | frontend/src/JobPosting.js:99 | The search text and its lower-cased form select the same jobs. |
| JobPosting.KeptIffOccurs | frontend/src/JobPosting.js:99-104 | A job is kept exactly when the lower-cased query occurs at some index of its lower-cased code, title or source. |
| JobPosting.NameFallbackSplits | frontend/src/JobPosting.js:222-223 | A match row with only `name = first + " " + last` shows first and last as its two names. |
| JobPosting.ShownFirstName | frontend/src/JobPosting.js:222 | A truthy `first_name` is shown as is. Otherwise, with no `name`, nothing is shown. With a `name`, its first word is shown: the space-free prefix that reaches the end of the name or a space. |
| JobPosting.ShownLastName | frontend/src/JobPosting.js:223 | A truthy `last_name` is shown as is. Otherwise, with no `name`, nothing is shown. With a `name`, something is shown exactly when the name contains a space. What is shown is the name's second word: it has no space, follows the first word and one space, and is followed by the end of the name or a space. |
| JobPosting.StoreMatches | frontend/src/JobPosting.js:87 | The results for one job code replace that code's entry. Every other code's entry is unchanged. |
| StudentProfiles.Set | frontend/src/StudentProfiles.js:37-39 | The named field takes the new value. Every other field keeps its value. |
| StudentProfiles.Entries | frontend/src/StudentProfiles.js:45-64 | The first eight parts are the profile fields in append order, with the skills parsed. A ninth part, the resume, is present exactly when a file is selected. |
| StudentProfiles.SubmitThenEntries | frontend/src/StudentProfiles.js:45-80 | After a successful submit, the next body has exactly the eight profile parts. The resume part is gone, the skill list is empty and every other part is "". |
| StudentProfiles.AfterSubmit | frontend/src/StudentProfiles.js:72-85 | Success resets all eight fields to "", clears the resume and shows the confirmation. Failure keeps the form and the resume, and shows the detail or "Submission failed". |
| StudentProfiles.ChooseCsv | frontend/src/StudentProfiles.js:89-94 | Choosing a file, or none, resets progress to 0 and clears the result and the error. |
| StudentProfiles.StartUpload | frontend/src/StudentProfiles.js:100-106 | With no file chosen nothing changes and nothing is sent. Otherwise progress, result and error are reset and the file is sent. |
| StudentProfiles.ChooseThenStart | frontend/src/StudentProfiles.js:89-101 | After a file choice, pressing upload sends exactly when a file was chosen. |
| StudentProfiles.Percent | frontend/src/StudentProfiles.js:115 | The result is the nearest integer to loaded·100/total, with halves rounding up. It lies in 0..100 when loaded ≤ total. |
| StudentProfiles.OnProgress | frontend/src/StudentProfiles.js:113-117 | A zero total leaves the state unchanged. Otherwise only the progress changes, to the rounded percentage. |
| StudentProfiles.ProgressStaysPercentage | frontend/src/StudentProfiles.js:114-116 | While loaded ≤ total, the shown progress stays within 0..100. |
| StudentProfiles.ProgressStaysPercentageThroughout | frontend/src/StudentProfiles.js:89-117 | Start with progress in 0..100 and apply any run of file choices, upload presses and progress reports that never exceed their total. The progress stays in 0..100 throughout. |
| AdminUsers.Apply | frontend/src/AdminUsers.js:62 | Only the edited field changes, and the address is kept. |
| AdminUsers.UpdateUsers | frontend/src/AdminUsers.js:60-64 | Length and order are kept. Rows with the given address get the edit. All other rows are identical to before. |
| AdminUsers.FindCode | frontend/src/AdminUsers.js:67 | The result is the first index whose label or code equals the key, or none when no entry matches. A missing key matches an entry exactly when that entry has no label. |
| AdminUsers.LabelToCode | frontend/src/AdminUsers.js:66-69 | The result is the code of the first entry whose label or code equals the key, or the key itself when none does. This holds for a missing key as well. |
| AdminUsers.LabelToCodeOfCode | frontend/src/AdminUsers.js:66-69 | An entry's own code maps to itself when no other entry carries it as its code or label. |
| AdminUsers.SaveBody | frontend/src/AdminUsers.js:76-80 | Role and active are sent as stored. The school code is the label-to-code lookup of the institutional code, whether that code is present or missing. |
| AdminUsers.MissingCodeSaved | frontend/src/AdminUsers.js:66-80 | A user without an institutional code is saved without a school code exactly when every code entry has a label. Otherwise the code of the first label-less entry is sent. |
| AdminUsers.ShownActive | frontend/src/AdminUsers.js:275 | The checkbox is ticked exactly when the active flag is missing or true. |
| AdminUsers.ActiveEditShows | frontend/src/AdminUsers.js:275-277 | Setting the active flag shows exactly that state on the user's rows. Other edits and other users leave the checkbox as it was. |
| AdminUsers.Edited | frontend/src/AdminUsers.js:329 | An edit in progress wins over the stored value, even when it is empty. The stored value is used only when there is no edit. |
| AdminUsers.TypingShows | frontend/src/AdminUsers.js:386-388 | After typing a value, the field shows it, even when it is empty. Other entries' fields are unaffected. |
| Tokens.CaughtRole | frontend/src/ActivityLog.js:12-19 | No token and an undecodable token both give the role "". A decodable token gives its role claim. |
| ActivityLog.Gate | frontend/src/ActivityLog.js:36-38 | The log is shown exactly when a stored token decodes with role "admin". Every other case redirects. |
| ActivityLog.Row | frontend/src/ActivityLog.js:42-44 | A row is the entry's four fields, in column order, joined by ",". |
| ActivityLog.Csv | frontend/src/ActivityLog.js:40-45 | The download starts with the header. With no entries it is the header alone. Otherwise it is the header, a newline, then the rows joined by newlines. |
| ActivityLog.CsvRoundTrip | frontend/src/ActivityLog.js:40-45 | Suppose no field contains "," or a newline. Then the download has entries + 1 lines, the first is the header, and each later line splits into exactly its entry's four fields. |
| ActivityLog.CommaInFieldShiftsColumns | frontend/src/ActivityLog.js:42-44 | A path containing a comma makes its row split into five fields. |
| Dashboard.VisibleTiles | frontend/src/Dashboard.js:21-33 | The tiles shown are an order-preserving subsequence of the declared tiles. `admin` sees all four. Any other role, or none, sees exactly Student Profiles and School Metrics. |
| Dashboard.DashboardTiles | frontend/src/Dashboard.js:7-17 | A missing or undecodable token sees the two general tiles. A decodable token sees the tiles of its role. |
| ProtectedRoute.Guard | frontend/src/ProtectedRoute.js:6-21 | The page renders exactly when the token decodes and has not expired. Expired means exp is non-zero and now ≥ exp·1000. The token is removed exactly in the expired case, and that case redirects. |
| ProtectedRoute.NoExpiryNeverExpires | frontend/src/ProtectedRoute.js:13 | A token with no exp, or with exp 0, always renders the page and is never removed. |
| ProtectedRoute.IssuedTokenLastsOneHour | frontend/src/ProtectedRoute.js:11-21 | A token the account service issued at time t opens pages until t + 1 hour. From then on it is removed and the user is redirected. |
| AdminMenu.Render | frontend/src/AdminMenu.js:9-45 | An undecodable token fails to render. The career button appears exactly for role career, with the configured text or "Career Staff". The dropdown appears exactly when open and holds the role's links, then the page's items, then Logout last. |
| AdminMenu.Toggle | frontend/src/AdminMenu.js:26 | The button flips the open state. |
| AdminMenu.ToggleTwice | frontend/src/AdminMenu.js:26 | Pressing the button twice leaves the dropdown as it was. |
| AdminMenu.JobMatchingForAdminAndRecruiter | frontend/src/AdminMenu.js:31-41 | Job Matching at /admin/jobs is offered exactly to admin. Job Matching at /recruiter/jobs is offered exactly to recruiter. |
| AdminMenu.StudentProfilesForAdminAndCareer | frontend/src/AdminMenu.js:31-42 | Student Profiles is offered exactly to admin and career. Pending Approvals is offered only to admin. |
| AdminMenu.SignedOutMenu | frontend/src/AdminMenu.js:9-44 | Without a token, the open dropdown holds only the page's items and Logout. |

## Left out

- Request-body validation. FastAPI rejects malformed bodies and invalid addresses (`EmailStr`) with 422 before the handlers run. That is not modelled: addresses are taken as given map keys. `EmailStr` also normalises a valid address before the handler runs: it strips whitespace, drops a display name and lower-cases the domain. The model's `email` is that normalised key, so `a@x.com` and `a@X.com` are two keys in the model but one in the service.
- The constant root endpoint `GET /` (app/main.py:43-45) is not modelled.
- UserRegistry.Register: bcrypt is idealised as a salted digest that only its own password checks against. Its 72-byte truncation is not modelled, and the random salt is a parameter.
- UserRegistry.RecordsPersist: requests are served one at a time. The handlers are plain functions that FastAPI runs on a thread pool, and `register` checks `req.email in users` before it hashes and writes. Two concurrent registrations of one new address can both pass the check, and the later write replaces the earlier record, together with any approval that landed in between. This check-then-write race is not modelled.
- UserRegistry.Login: JWT signing with the HS256 secret is kept opaque. The expiry is whole seconds passed in as `now`, in place of `datetime.utcnow()`.
- SchoolRoster.StudentsBySchool: records are modelled as objects whose student lists are lists of strings. A stored job whose list is a JSON string is walked character by character, and one whose list is an object is walked by its keys. Each character or key is then tallied as an address, with no error. A `null` or numeric list raises. A stored value that parses but is not an object also raises. None of these cases is covered. The `get_current_user` dependency and the `redis_client` connection are not part of this model. The caller's account is an input.
- The `/match` endpoint, `redis_client` and `get_current_user` are defined outside the modelled files and are not modelled.
- JobPosting.FilterJobs: `toLowerCase` on a missing job code, title or source throws in the browser. `Job` makes all three total strings, so that failure is not modelled.
- AdminUsers.SaveBody: JSON `null` and a missing field are one missing value, both for a user's institutional code and for a code entry's label. JavaScript's `===` tells `null` from `undefined`, so a null code next to an undefined label, or the reverse, would not match in the browser.
- RegisterForm.ErrorText: only absent, string and list details are modelled. A number detail is shown by the browser as itself. An object detail is stored as is, and rendering it then fails.
- AdminUsers.Edited: the edits are modelled as a map. The browser keeps them in a plain object. A code or feed name that names an `Object.prototype` member with no edit in progress, such as `constructor`, `toString` or `__proto__`, would read the inherited member instead of the stored value. Such keys are not modelled.
- AdminMenu.Render: a token whose payload is JSON `null` decodes without error. `decoded?.role` then gives no role, and the menu renders as for a signed-out user. The model counts that token as undecodable, which renders nothing, so this case is not covered.
- Text.ToLower: only ASCII letters are lower-cased. Unicode case mapping is not modelled.
- StudentProfiles.Percent: it is computed on exact rationals. The browser computes loaded·100/total in floating point before rounding.
- StudentProfiles.AfterSubmit: only an absent or string `detail` is modelled. A list detail, FastAPI's 422 shape, is stored as is by the browser, and rendering its objects then fails. That case is not covered.
- StudentProfiles.Entries: the skills part is the parsed list. Its `JSON.stringify` text is left abstract.
- ActivityLog.Row: entry fields are strings. A missing field, which a template literal prints as "undefined", is not modelled.
- HTTP calls (axios, fetch), React state and rendering, `localStorage`, `setTimeout` toasts and redirects, `window.confirm`, and the Blob/link download plumbing are not modelled. Request outcomes and stored tokens are inputs.
- A stored token is either absent or a token. An empty string in storage is treated like no token, because both are falsy.
- The school-code and RSS-feed handlers in AdminUsers.js (add, update, delete, refresh) are not modelled. The resume file picker is not modelled either. These handlers only issue requests or store a selected file.
- The fixed dropdowns inside JobPosting.js:109-121 and StudentProfiles.js:132-167 are not modelled. They are constant link lists, plus an admin-only reset button that only confirms and sends a request.
- The match score's `toFixed(2)` display is not modelled, because it is floating point. Chart rendering, PDF layout, the Maps loader, the service worker and the OpenAI-backed services are not modelled either.
- tests/test_main.py targets a different request shape (`username` fields, `/admin/approve/jane`, a fixed token). Only its 400-on-duplicate and 403-before-approval expectations agree with app/main.py, and both are covered by `UserRegistry.Register` and `UserRegistry.Login`.

=== FILE: activity_log.dfy ===
/** The activity log page: only administrators may see it, and its
    download is the log rendered as comma-separated lines. */
module ActivityLog {
  import opened Wrappers
  import opened Text
  import opened Tokens

  /** Where the page goes: the log, or a redirect to the dashboard. */
  datatype View = ShowLog | RedirectToDashboard

  /** The page is shown exactly to a token that decodes with role `admin`;
      no token, an undecodable token, a missing role claim and every other
      role are redirected. */
  function Gate(stored: Stored): (v: View)
    ensures v == ShowLog <==> stored.Some? && Decode(stored.value).Some?
                              && Decode(stored.value).value.role == Some("admin")
  {
    if CaughtRole(stored) == Some("admin") then ShowLog else RedirectToDashboard
  }

  datatype LogEntry = LogEntry(timestamp: string, verb: string, path: string, user: string)

  const Header: string := "timestamp,method,path,user"

  /** The four fields of an entry, in column order. */
  function Fields(e: LogEntry): seq<string> {
    [e.timestamp, e.verb, e.path, e.user]
  }

  /** One CSV row: the four fields separated by commas, without quoting. */
  function Row(e: LogEntry): (r: string)
    ensures r == Join(Fields(e), ",")
  {
    var fs := Fields(e);
    assert fs[1..] == [e.verb, e.path, e.user];
    assert fs[1..][1..] == [e.path, e.user];
    assert fs[1..][1..][1..] == [e.user];
    assert Join([e.path, e.user], ",") == e.path + "," + e.user;
    assert Join([e.verb, e.path, e.user], ",") == e.verb + "," + (e.path + "," + e.user);
    e.timestamp + "," + e.verb + "," + e.path + "," + e.user
  }

  function Rows(entries: seq<LogEntry>): (r: seq<string>)
    ensures |r| == |entries|
    ensures forall i :: 0 <= i < |entries| ==> r[i] == Row(entries[i])
  {
    seq(|entries|, i requires 0 <= i < |entries| => Row(entries[i]))
  }

  /** `downloadCSV`'s text: the header line, then one row per entry, joined
      by newlines with no trailing newline. */
  function Csv(entries: seq<LogEntry>): (r: string)
    ensures Header <= r
    ensures |entries| == 0 ==> r == Header
    ensures |entries| > 0 ==> r == Header + "\n" + Join(Rows(entries), "\n")
  {
    var lines := [Header] + Rows(entries);
    assert lines[1..] == Rows(entries);
    Join(lines, "\n")
  }

  /** No field holds a comma or a newline. */
  predicate Plain(entries: seq<LogEntry>) {
    forall i, k :: 0 <= i < |entries| && 0 <= k < 4 ==>
      ',' !in Fields(entries[i])[k] && '\n' !in Fields(entries[i])[k]
  }

  /** For plain fields the download parses back: its lines are the header
      and one line per entry, so there are `|entries| + 1` of them, and
      each entry line splits on commas into exactly that entry's fields. */
  lemma CsvRoundTrip(entries: seq<LogEntry>)
    requires Plain(entries)
    ensures var lines := Split(Csv(entries), '\n');
            && |lines| == |entries| + 1
            && lines[0] == Header
            && forall i :: 0 <= i < |entries| ==> Split(lines[i + 1], ',') == Fields(entries[i])
  {
    var lines := [Header] + Rows(entries);
    forall i | 0 <= i < |entries|
      ensures '\n' !in Row(entries[i])
      ensures Split(Row(entries[i]), ',') == Fields(entries[i])
    {
      var fs := Fields(entries[i]);
      assert forall k :: 0 <= k < 4 ==> ',' !in fs[k] && '\n' !in fs[k];
      NoCharInJoin(fs, ",", '\n');
      SplitJoin(fs, ',');
    }
    assert '\n' !in Header;
    SplitJoin(lines, '\n');
  }

  /** A character in none of the pieces nor the separator is not in the
      join. */
  lemma {:induction false} NoCharInJoin(parts: seq<string>, sep: string, c: char)
    requires c !in sep
    requires forall k :: 0 <= k < |parts| ==> c !in parts[k]
    ensures c !in Join(parts, sep)
    decreases |parts|
  {
    if |parts| > 1 {
      NoCharInJoin(parts[1..], sep, c);
    }
  }

  /** Without quoting, a comma inside a field shifts the columns: a path
      such as `/jobs?a,b` makes the row split into five fields. */
  lemma CommaInFieldShiftsColumns()
    ensures |Split(Row(LogEntry("t", "GET", "/jobs?a,b", "u")), ',')| == 5
  {
    var parts := ["t", "GET", "/jobs?a", "b", "u"];
    assert Row(LogEntry("t", "GET", "/jobs?a,b", "u")) == Join(parts, ",");
    forall k | 0 <= k < |parts|
      ensures ',' !in parts[k]
    {
    }
    SplitJoin(parts, ',');
  }
}

=== FILE: admin_menu.dfy ===
/** The shared navigation menu: a career-services button for career staff,
    and a toggled dropdown whose links depend on the signed-in role, followed
    by the page's own items and a Logout button. */
module AdminMenu {
  import opened Wrappers
  import opened Tokens

  /** A dropdown entry: a link, one of the items the enclosing page passes
      in, or the Logout button. */
  datatype Item = Link(caption: string, path: string) | Extra(id: nat) | Logout

  /** The rendered menu: the career button's text when it is shown, and the
      dropdown's entries when it is open. */
  datatype Menu = Menu(careerButton: Option<string>, dropdown: Option<seq<Item>>)

  /** The role-specific links. */
  function RoleLinks(role: Option<string>): seq<Item> {
    if role == Some("admin") then
      [Link("Dashboard", "/dashboard"), Link("Pending Approvals", "/admin/pending"),
       Link("Student Profiles", "/students"), Link("Job Matching", "/admin/jobs")]
    else if role == Some("recruiter") then [Link("Job Matching", "/recruiter/jobs")]
    else if role == Some("career") then [Link("Student Profiles", "/students")]
    else []
  }

  /** The role the menu reads: none without a token; decoding is not
      guarded, so an undecodable token makes rendering fail (`None`). */
  function MenuRole(stored: Stored): Option<Option<string>> {
    match stored
    case None => Some(None)
    case Some(t) =>
      match Decode(t)
      case None => None
      case Some(c) => Some(c.role)
  }

  /** The career button's text: the configured text when it is non-empty,
      otherwise "Career Staff". */
  function CareerText(configured: Option<string>): string {
    if configured.Some? && configured.value != "" then configured.value else "Career Staff"
  }

  /** The menu for what local storage holds, the toggle state, the page's
      own items and the configured career text. */
  function Render(stored: Stored, menuOpen: bool, children: seq<Item>, configured: Option<string>)
    : (r: Option<Menu>)
    ensures r.None? <==> stored.Some? && Decode(stored.value).None?
    ensures r.Some? ==> (r.value.careerButton.Some? <==> MenuRole(stored) == Some(Some("career")))
    ensures r.Some? && r.value.careerButton.Some? ==> r.value.careerButton.value == CareerText(configured)
    ensures r.Some? ==> (r.value.dropdown.Some? <==> menuOpen)
    ensures r.Some? && menuOpen ==>
              var items := r.value.dropdown.value;
              && |items| == |RoleLinks(MenuRole(stored).value)| + |children| + 1
              && items[|items| - 1] == Logout
              && items[..|RoleLinks(MenuRole(stored).value)|] == RoleLinks(MenuRole(stored).value)
              && items[|RoleLinks(MenuRole(stored).value)|..|items| - 1] == children
  {
    match MenuRole(stored)
    case None => None
    case Some(role) =>
      var button := if role == Some("career") then Some(CareerText(configured)) else None;
      var dropdown := if menuOpen then Some(RoleLinks(role) + children + [Logout]) else None;
      Some(Menu(button, dropdown))
  }

  /** The menu button flips the dropdown; pressing it twice restores it. */
  function Toggle(menuOpen: bool): (r: bool)
    ensures r != menuOpen
  {
    !menuOpen
  }

  /** Pressing the menu button twice leaves the dropdown as it was. */
  lemma ToggleTwice(menuOpen: bool)
    ensures Toggle(Toggle(menuOpen)) == menuOpen
  {
  }

  /** A Job Matching link is offered exactly to administrators and
      recruiters, at the administrator's and the recruiter's job page
      respectively. */
  lemma JobMatchingForAdminAndRecruiter(role: Option<string>)
    ensures Link("Job Matching", "/admin/jobs") in RoleLinks(role) <==> role == Some("admin")
    ensures Link("Job Matching", "/recruiter/jobs") in RoleLinks(role) <==> role == Some("recruiter")
  {
  }

  /** Student Profiles is offered exactly to administrators and career
      staff, and Pending Approvals to administrators alone. */
  lemma StudentProfilesForAdminAndCareer(role: Option<string>)
    ensures Link("Student Profiles", "/students") in RoleLinks(role)
            <==> role == Some("admin") || role == Some("career")
    ensures Link("Pending Approvals", "/admin/pending") in RoleLinks(role) <==> role == Some("admin")
  {
  }

  /** Without a token the open dropdown holds only the page's items and
      Logout. */
  lemma SignedOutMenu(menuOpen: bool, children: seq<Item>, configured: Option<string>)
    requires menuOpen
    ensures Render(None, menuOpen, children, configured) == Some(Menu(None, Some(children + [Logout])))
  {
  }
}

=== FILE: admin_users.dfy ===
/** The user administration page: editing a row of the user table, turning
    an institution's label into its code, the body saved for a user, and
    the fields that show an edit in progress over the stored value. */
module AdminUsers {
  import opened Wrappers

  /** A row of the user table; the editable fields may be absent. */
  datatype UserRow = UserRow(email: string, institutionalCode: Option<string>,
                             role: Option<string>, active: Option<bool>)

  /** The three edits the table offers. */
  datatype Change = SetCode(code: string) | SetRole(role: string) | SetActive(active: bool)

  /** One row with one field replaced. */
  function Apply(u: UserRow, c: Change): (r: UserRow)
    ensures r.email == u.email
    ensures c.SetCode? ==> r == u.(institutionalCode := Some(c.code))
    ensures c.SetRole? ==> r == u.(role := Some(c.role))
    ensures c.SetActive? ==> r == u.(active := Some(c.active))
  {
    match c
    case SetCode(v) => u.(institutionalCode := Some(v))
    case SetRole(v) => u.(role := Some(v))
    case SetActive(v) => u.(active := Some(v))
  }

  /** `handleChange(email, field, value)`: every row with that address gets
      the edit; all other rows are untouched; length and order are kept. */
  function UpdateUsers(users: seq<UserRow>, email: string, c: Change): (r: seq<UserRow>)
    ensures |r| == |users|
    ensures forall i :: 0 <= i < |users| && users[i].email == email ==> r[i] == Apply(users[i], c)
    ensures forall i :: 0 <= i < |users| && users[i].email != email ==> r[i] == users[i]
  {
    seq(|users|, i requires 0 <= i < |users| =>
      if users[i].email == email then Apply(users[i], c) else users[i])
  }

  /** A school code with its display label; an entry whose label was never
      set has none. */
  datatype SchoolCode = SchoolCode(code: string, labelText: Option<string>)

  /** `c.label === key || c.code === key`, where a missing key or label is
      the one missing value: a missing key names every label-less entry and
      never a code. */
  predicate Names(c: SchoolCode, key: Option<string>) {
    c.labelText == key || Some(c.code) == key
  }

  /** Index of the first entry whose label or code is `key`. */
  function FindCode(codes: seq<SchoolCode>, key: Option<string>): (r: Option<nat>)
    ensures r.Some? ==> r.value < |codes| && Names(codes[r.value], key)
    ensures r.Some? ==> forall j :: 0 <= j < r.value ==> !Names(codes[j], key)
    ensures r.None? ==> forall j :: 0 <= j < |codes| ==> !Names(codes[j], key)
    decreases |codes|
  {
    if |codes| == 0 then None
    else if Names(codes[0], key) then Some(0)
    else
      match FindCode(codes[1..], key)
      case None => None
      case Some(k) => Some(k + 1)
  }

  /** `labelToCode`: the code of the first entry whose label or code is
      `key`, and `key` itself when none is. */
  function LabelToCode(codes: seq<SchoolCode>, key: Option<string>): (r: Option<string>)
    ensures (forall j :: 0 <= j < |codes| ==> !Names(codes[j], key)) ==> r == key
    ensures forall i :: (0 <= i < |codes| && Names(codes[i], key)
                         && forall j :: 0 <= j < i ==> !Names(codes[j], key)) ==> r == Some(codes[i].code)
  {
    match FindCode(codes, key)
    case None => key
    case Some(k) => Some(codes[k].code)
  }

  /** Looking up an entry's own code gives that code back when no other
      entry carries it as its code or its label. */
  lemma LabelToCodeOfCode(codes: seq<SchoolCode>, i: nat)
    requires i < |codes|
    requires forall j :: 0 <= j < |codes| && j != i ==>
               codes[j].code != codes[i].code && codes[j].labelText != Some(codes[i].code)
    ensures LabelToCode(codes, Some(codes[i].code)) == Some(codes[i].code)
  {
  }

  /** The body of `PUT /admin/users/{email}`; absent fields are left out. */
  datatype SavePayload = SavePayload(role: Option<string>, schoolCode: Option<string>, active: Option<bool>)

  /** `handleSave`: the role and active flag as they are, and the school
      code looked up from the institutional code, missing or not. */
  function SaveBody(codes: seq<SchoolCode>, u: UserRow): (p: SavePayload)
    ensures p.role == u.role && p.active == u.active
    ensures p.schoolCode == LabelToCode(codes, u.institutionalCode)
  {
    SavePayload(u.role, LabelToCode(codes, u.institutionalCode), u.active)
  }

  /** A user without an institutional code is saved without a school code
      exactly when every code entry has a label; otherwise the first
      label-less entry's code is sent. */
  lemma MissingCodeSaved(codes: seq<SchoolCode>, u: UserRow)
    requires u.institutionalCode.None?
    ensures SaveBody(codes, u).schoolCode.None? <==> forall j :: 0 <= j < |codes| ==> codes[j].labelText.Some?
    ensures forall i :: 0 <= i < |codes| && codes[i].labelText.None?
                        && (forall j :: 0 <= j < i ==> codes[j].labelText.Some?)
                        ==> SaveBody(codes, u).schoolCode == Some(codes[i].code)
  {
  }

  /** The checkbox state `u.active !== false`: only an explicit `false`
      shows a user as inactive. */
  function ShownActive(u: UserRow): (r: bool)
    ensures r <==> u.active.None? || u.active == Some(true)
  {
    assert u.active.Some? && u.active != Some(false) ==> u.active.value;
    u.active != Some(false)
  }

  /** Ticking or clearing the checkbox shows exactly that state on every
      row of that user; other edits leave the checkbox alone. */
  lemma ActiveEditShows(users: seq<UserRow>, email: string, c: Change, i: nat)
    requires i < |users|
    ensures var r := UpdateUsers(users, email, c);
            && (users[i].email == email && c.SetActive? ==> ShownActive(r[i]) == c.active)
            && (users[i].email != email || !c.SetActive? ==> ShownActive(r[i]) == ShownActive(users[i]))
  {
  }

  /** `edits[key] ?? stored`: an edit in progress, even an empty one, wins
      over the stored value. */
  function Edited(edits: map<string, string>, key: string, stored: string): (r: string)
    ensures key in edits ==> r == edits[key]
    ensures key !in edits ==> r == stored
  {
    if key in edits then edits[key] else stored
  }

  /** After typing `v` into an entry's field the field shows `v`, even when
      `v` is empty, and every other entry's field is unaffected. */
  lemma TypingShows(edits: map<string, string>, key: string, v: string, other: string, stored: string)
    requires other != key
    ensures Edited(edits[key := v], key, stored) == v
    ensures Edited(edits[key := v], other, stored) == Edited(edits, other, stored)
  {
  }
}

=== FILE: comma_list.dfy ===
/** The comma-separated list parser shared by the job form's desired skills
    and the student form's skills: `s.split(',').map(s => s.trim()).filter(Boolean)`. */
module CommaList {
  import opened Seqs
  import opened Text

  /** Every piece trimmed, in order. */
  function TrimAll(pieces: seq<string>): (r: seq<string>)
    ensures |r| == |pieces|
    ensures forall i :: 0 <= i < |pieces| ==> r[i] == Trim(pieces[i])
  {
    seq(|pieces|, i requires 0 <= i < |pieces| => Trim(pieces[i]))
  }

  predicate NonEmpty(x: string) {
    x != ""
  }

  predicate NotBlank(x: string) {
    !AllWhitespace(x)
  }

  /** The pieces that survive: non-empty, trimmed, comma-free, in the order
      of the comma-separated pieces, one per piece that is not blank. */
  function Parse(s: string): (r: seq<string>)
    ensures forall i :: 0 <= i < |r| ==> r[i] != "" && IsTrimmed(r[i]) && ',' !in r[i]
    ensures IsSubsequence(r, TrimAll(Split(s, ',')))
    ensures |r| == CountWhere(NotBlank, Split(s, ','))
  {
    var pieces := Split(s, ',');
    var r := Filter(NonEmpty, TrimAll(pieces));
    TrimmedNonEmptyCount(pieces);
    forall i | 0 <= i < |r|
      ensures ',' !in r[i]
    {
      var k :| 0 <= k < |TrimAll(pieces)| && TrimAll(pieces)[k] == r[i];
      TrimStaysInside(pieces[k], ',');
    }
    r
  }

  /** Trimming never introduces a character. */
  lemma TrimStaysInside(p: string, c: char)
    requires c !in p
    ensures c !in Trim(p)
  {
  }

  /** A piece trims to a non-empty string exactly when it is not blank. */
  lemma {:induction false} TrimmedNonEmptyCount(pieces: seq<string>)
    ensures CountWhere(NonEmpty, TrimAll(pieces)) == CountWhere(NotBlank, pieces)
    decreases |pieces|
  {
    if |pieces| > 0 {
      assert TrimAll(pieces)[1..] == TrimAll(pieces[1..]);
      TrimmedNonEmptyCount(pieces[1..]);
    }
  }

  /** Parsing the comma-join of clean items (non-empty, trimmed, comma-free)
      gives the items back. */
  lemma {:induction false} ParseJoin(xs: seq<string>)
    requires forall i :: 0 <= i < |xs| ==> xs[i] != "" && IsTrimmed(xs[i]) && ',' !in xs[i]
    ensures Parse(Join(xs, [','])) == xs
  {
    var pieces := Split(Join(xs, [',']), ',');
    if |xs| == 0 {
      assert pieces == [""];
      assert TrimAll(pieces) == [""];
    } else {
      SplitJoin(xs, ',');
      forall i | 0 <= i < |xs|
        ensures Trim(xs[i]) == xs[i]
      {
        TrimFixesTrimmed(xs[i]);
      }
      assert TrimAll(pieces) == xs;
      FilterKeepsAllIff(NonEmpty, xs);
    }
  }
}

=== FILE: dashboard.dfy ===
/** The dashboard: a fixed list of tiles, of which the administrator-only
    ones are shown to administrators alone. */
module Dashboard {
  import opened Wrappers
  import opened Seqs
  import opened Tokens

  datatype Tile = Tile(caption: string, path: string, adminOnly: bool)

  const Tiles: seq<Tile> := [
    Tile("Student Profiles", "/students", false),
    Tile("School Metrics", "/metrics", false),
    Tile("Pending Registrations", "/admin/pending", true),
    Tile("Job Matching", "/admin/jobs", true)
  ]

  predicate Shown(t: Tile, role: Option<string>) {
    !t.adminOnly || role == Some("admin")
  }

  /** The tiles shown for `role`, in declared order: all four to `admin`,
      exactly Student Profiles and School Metrics to any other role or to
      no role at all. */
  function VisibleTiles(role: Option<string>): (r: seq<Tile>)
    ensures IsSubsequence(r, Tiles)
    ensures role == Some("admin") ==> r == Tiles
    ensures role != Some("admin") ==> r == [Tiles[0], Tiles[1]]
  {
    Filter((t: Tile) => Shown(t, role), Tiles)
  }

  /** The tiles for what local storage holds: the role starts as `''` and is
      only replaced by a token that decodes, so a missing or undecodable
      token sees the two general tiles. */
  function DashboardTiles(stored: Stored): (r: seq<Tile>)
    ensures stored.None? || Decode(stored.value).None? ==> r == [Tiles[0], Tiles[1]]
    ensures stored.Some? && Decode(stored.value).Some? ==> r == VisibleTiles(Decode(stored.value).value.role)
  {
    VisibleTiles(CaughtRole(stored))
  }
}

=== FILE: job_posting.dfy ===
/** The job posting page: the posting form and the body it sends, the job
    table's search filter, the per-job match results kept by job code, and
    how a match row's names are displayed. */
module JobPosting {
  import opened Wrappers
  import opened Seqs
  import opened Text
  import CommaList

  datatype Field = JobTitle | JobDescription | DesiredSkills | JobCode | Source | RateOfPayRange

  datatype Form = Form(jobTitle: string, jobDescription: string, desiredSkills: string,
                       jobCode: string, source: string, rateOfPayRange: string)

  /** The state the form starts in and returns to after a post. */
  const Blank: Form := Form("", "", "", "", "", "")

  function Get(f: Form, field: Field): string {
    match field
    case JobTitle => f.jobTitle
    case JobDescription => f.jobDescription
    case DesiredSkills => f.desiredSkills
    case JobCode => f.jobCode
    case Source => f.source
    case RateOfPayRange => f.rateOfPayRange
  }

  /** `handleChange`: the named field takes the typed value; every other
      field keeps its value. */
  function Set(f: Form, field: Field, v: string): (r: Form)
    ensures Get(r, field) == v
    ensures forall g :: g != field ==> Get(r, g) == Get(f, g)
  {
    match field
    case JobTitle => f.(jobTitle := v)
    case JobDescription => f.(jobDescription := v)
    case DesiredSkills => f.(desiredSkills := v)
    case JobCode => f.(jobCode := v)
    case Source => f.(source := v)
    case RateOfPayRange => f.(rateOfPayRange := v)
  }

  /** The JSON body of `POST /jobs`. */
  datatype Payload = Payload(jobTitle: string, jobDescription: string, desiredSkills: seq<string>,
                             jobCode: string, source: string, rateOfPayRange: string)

  /** The body sent for a form: text fields as typed, the skills parsed from
      the comma-separated field. */
  function PayloadOf(f: Form): (p: Payload)
    ensures p.jobTitle == f.jobTitle && p.jobDescription == f.jobDescription
    ensures p.jobCode == f.jobCode && p.source == f.source && p.rateOfPayRange == f.rateOfPayRange
    ensures forall i :: 0 <= i < |p.desiredSkills| ==>
              p.desiredSkills[i] != "" && IsTrimmed(p.desiredSkills[i]) && ',' !in p.desiredSkills[i]
    ensures |p.desiredSkills| == CountWhere(CommaList.NotBlank, Split(f.desiredSkills, ','))
    ensures p.desiredSkills == CommaList.Parse(f.desiredSkills)
  {
    Payload(f.jobTitle, f.jobDescription, CommaList.Parse(f.desiredSkills),
            f.jobCode, f.source, f.rateOfPayRange)
  }

  /** `handleSubmit` after the request settles: a successful post clears all
      six fields and shows the success message; a failed one keeps the form
      and the message cleared at the start of the submit. */
  function AfterPost(f: Form, succeeded: bool): (r: (Form, string))
    ensures succeeded ==> r.1 == "Job posted successfully!" && forall g :: Get(r.0, g) == ""
    ensures !succeeded ==> r == (f, "")
  {
    if succeeded then (Blank, "Job posted successfully!") else (f, "")
  }

  /** A row of the job table. */
  datatype Job = Job(jobCode: string, jobTitle: string, source: string, rateOfPayRange: string)

  /** The lower-cased query occurs in the lower-cased code, title or source. */
  predicate Hit(j: Job, q: string) {
    Includes(ToLower(j.jobCode), q) || Includes(ToLower(j.jobTitle), q) || Includes(ToLower(j.source), q)
  }

  /** The search test for one lower-cased query, as a value. */
  function HitOf(q: string): Job -> bool {
    (j: Job) => Hit(j, q)
  }

  /** `filteredJobs`: the jobs, in order, whose code, title or source
      contains the search text, ignoring case; one entry per matching job,
      duplicates included. */
  function FilterJobs(jobs: seq<Job>, search: string): (r: seq<Job>)
    ensures IsSubsequence(r, jobs)
    ensures |r| == CountWhere(HitOf(ToLower(search)), jobs)
    ensures forall i :: 0 <= i < |r| ==> Hit(r[i], ToLower(search))
    ensures forall i :: 0 <= i < |jobs| && Hit(jobs[i], ToLower(search)) ==> jobs[i] in r
  {
    Filter(HitOf(ToLower(search)), jobs)
  }

  /** An empty search keeps every job. */
  lemma EmptySearchKeepsAll(jobs: seq<Job>)
    ensures FilterJobs(jobs, "") == jobs
  {
    var q := ToLower("");
    assert forall i :: 0 <= i < |jobs| ==> Hit(jobs[i], q);
    FilterKeepsAllIff(HitOf(q), jobs);
  }

  /** Searching is case-insensitive: the search text and its lower-cased
      form select the same jobs. */
  lemma SearchIgnoresCase(jobs: seq<Job>, search: string)
    ensures FilterJobs(jobs, ToLower(search)) == FilterJobs(jobs, search)
  {
    ToLowerIdempotent(search);
  }

  /** A job is kept exactly when the lower-cased search text occurs at some
      position of its lower-cased code, title or source. */
  lemma KeptIffOccurs(jobs: seq<Job>, search: string, i: nat)
    requires i < |jobs|
    ensures jobs[i] in FilterJobs(jobs, search) <==>
              var q := ToLower(search);
              (exists n :: OccursAt(ToLower(jobs[i].jobCode), q, n))
              || (exists n :: OccursAt(ToLower(jobs[i].jobTitle), q, n))
              || (exists n :: OccursAt(ToLower(jobs[i].source), q, n))
  {
    var q := ToLower(search);
    IncludesIff(ToLower(jobs[i].jobCode), q);
    IncludesIff(ToLower(jobs[i].jobTitle), q);
    IncludesIff(ToLower(jobs[i].source), q);
  }

  /** One match result as returned by `/match`; names may be given split or
      as one `name`. */
  datatype MatchRow = MatchRow(firstName: Option<string>, lastName: Option<string>,
                               name: Option<string>, email: Option<string>)

  /** JavaScript truthiness of an optional string. */
  predicate Truthy(s: Option<string>) {
    s.Some? && s.value != ""
  }

  /** `m.first_name || m.name?.split(' ')[0]`: without a first name, the
      name's first word, i.e. its longest space-free prefix. */
  function ShownFirstName(m: MatchRow): (r: Option<string>)
    ensures Truthy(m.firstName) ==> r == m.firstName
    ensures !Truthy(m.firstName) && m.name.None? ==> r.None?
    ensures !Truthy(m.firstName) && m.name.Some? ==>
              && r.Some? && r.value <= m.name.value && ' ' !in r.value
              && (|r.value| == |m.name.value| || m.name.value[|r.value|] == ' ')
  {
    if Truthy(m.firstName) then m.firstName
    else if m.name.None? then None
    else
      SplitFirstPiece(m.name.value, ' ');
      Some(Split(m.name.value, ' ')[0])
  }

  /** `m.last_name || m.name?.split(' ')[1]`: without a last name, the
      name's second word, the run after the first space up to the next
      space or the end; a name without a space shows nothing. */
  function ShownLastName(m: MatchRow): (r: Option<string>)
    ensures Truthy(m.lastName) ==> r == m.lastName
    ensures !Truthy(m.lastName) && m.name.None? ==> r.None?
    ensures !Truthy(m.lastName) && m.name.Some? ==>
              (r.Some? <==> ' ' in m.name.value) && (r.Some? ==> ' ' !in r.value)
    ensures !Truthy(m.lastName) && m.name.Some? && r.Some? ==>
              exists b :: m.name.value == Split(m.name.value, ' ')[0] + " " + r.value + b
                          && (b == "" || b[0] == ' ')
  {
    if Truthy(m.lastName) then m.lastName
    else if m.name.None? then None
    else
      var words := Split(m.name.value, ' ');
      if |words| > 1 then
        SplitSecondPiece(m.name.value, ' ');
        Some(words[1])
      else None
  }

  /** A row with only `name = first + " " + last`, both words free of
      spaces, is shown as those two words. */
  lemma NameFallbackSplits(first: string, last: string, email: Option<string>)
    requires ' ' !in first && ' ' !in last
    ensures var m := MatchRow(None, None, Some(first + " " + last), email);
            ShownFirstName(m) == Some(first) && ShownLastName(m) == Some(last)
  {
    var words := [first, last];
    assert Join(words, [' ']) == first + " " + last;
    SplitJoin(words, ' ');
  }

  /** `handleMatch`: the results for `code` replace that code's entry; every
      other code's entry is unchanged. */
  function StoreMatches(matches: map<string, seq<MatchRow>>, code: string, rows: seq<MatchRow>)
    : (r: map<string, seq<MatchRow>>)
    ensures r.Keys == matches.Keys + {code}
    ensures r[code] == rows
    ensures forall c :: c in matches && c != code ==> r[c] == matches[c]
  {
    matches[code := rows]
  }
}

=== FILE: protected_route.dfy ===
/** The route guard wrapped around signed-in pages: it renders the page only
    for a stored token that decodes and has not expired, and forgets an
    expired token. */
module ProtectedRoute {
  import opened Wrappers
  import opened Tokens
  import UserRegistry

  datatype Decision = RenderChildren | RedirectToLogin

  /** An `exp` claim that JavaScript treats as true: present and non-zero. */
  predicate HasExpiry(c: Claims) {
    c.exp.Some? && c.exp.value != 0
  }

  /** The token has expired at `nowMs`, milliseconds since the epoch. */
  predicate Expired(c: Claims, nowMs: int) {
    HasExpiry(c) && nowMs >= c.exp.value * 1000
  }

  /** The guard's decision and whether it removes the stored token. No
      token or an undecodable one redirects without removing anything; an
      expired one redirects and is removed; anything else renders. */
  function Guard(stored: Stored, nowMs: int): (out: (Decision, bool))
    ensures out.0 == RenderChildren <==>
              stored.Some? && Decode(stored.value).Some? && !Expired(Decode(stored.value).value, nowMs)
    ensures out.1 <==> stored.Some? && Decode(stored.value).Some? && Expired(Decode(stored.value).value, nowMs)
    ensures out.1 ==> out.0 == RedirectToLogin
  {
    match stored
    case None => (RedirectToLogin, false)
    case Some(t) =>
      match Decode(t)
      case None => (RedirectToLogin, false)
      case Some(c) =>
        if c.exp.Some? && c.exp.value != 0 && nowMs >= c.exp.value * 1000
        then (RedirectToLogin, true)
        else (RenderChildren, false)
  }

  /** A token without an `exp` claim, or with `exp` zero, never expires. */
  lemma NoExpiryNeverExpires(c: Claims, nowMs: int)
    requires c.exp.None? || c.exp == Some(0)
    ensures Guard(Some(Decodable(c)), nowMs) == (RenderChildren, false)
  {
  }

  /** A token the account service issued at `now` (seconds) opens protected
      pages until one hour later and is removed from then on. */
  lemma IssuedTokenLastsOneHour(users: UserRegistry.Store, email: string, password: string,
                                now: int, nowMs: int)
    requires now >= 0
    requires UserRegistry.Login(users, email, password, now).0.Issued?
    ensures var t := UserRegistry.Login(users, email, password, now).0.token;
            Guard(Some(t), nowMs) ==
              if nowMs < (now + UserRegistry.TokenLifetime) * 1000 then (RenderChildren, false)
              else (RedirectToLogin, true)
  {
  }
}

=== FILE: register_form.dfy ===
/** The registration form: its field state, the client-side check that
    blocks submission, the request body it sends, and how a failed
    request's error detail is shown. */
module RegisterForm {
  import opened Wrappers
  import opened Seqs
  import opened Text
  import CommaList

  datatype Field = Email | FirstName | LastName | Password | Role

  datatype Form = Form(email: string, firstName: string, lastName: string,
                       password: string, role: string)

  /** The state the form starts in: everything empty, role `applicant`. */
  const Initial: Form := Form("", "", "", "", "applicant")

  function Get(f: Form, field: Field): string {
    match field
    case Email => f.email
    case FirstName => f.firstName
    case LastName => f.lastName
    case Password => f.password
    case Role => f.role
  }

  /** `handleChange`: the named field takes the typed value; every other
      field keeps its value. */
  function Set(f: Form, field: Field, v: string): (r: Form)
    ensures Get(r, field) == v
    ensures forall g :: g != field ==> Get(r, g) == Get(f, g)
  {
    match field
    case Email => f.(email := v)
    case FirstName => f.(firstName := v)
    case LastName => f.(lastName := v)
    case Password => f.(password := v)
    case Role => f.(role := v)
  }

  /** Roles that must name an institution. */
  predicate NeedsCode(role: string) {
    role == "career" || role == "recruiter"
  }

  /** The JSON body of `POST /register`; `institutionalCode` is `None` where
      the key is left out. */
  datatype Payload = Payload(email: string, firstName: string, lastName: string, password: string,
                             institutionalCode: Option<string>, role: string)

  /** The outcome of pressing Register: an error shown without any request,
      or the request body to send. */
  datatype Submission = Invalid(error: string) | Post(payload: Payload)

  /** `handleSubmit` up to the request. Names and address must be non-blank
      after trimming; the password only non-empty, untrimmed; the code is
      required, non-blank, for career and recruiter only. The body carries
      the fields as typed and omits the code exactly when it is empty. */
  function Submit(f: Form, code: string): (r: Submission)
    ensures r == Invalid("All fields are required")
            <==> AllWhitespace(f.email) || AllWhitespace(f.firstName) || AllWhitespace(f.lastName)
                 || f.password == "" || (NeedsCode(f.role) && AllWhitespace(code))
    ensures r.Invalid? ==> r.error == "All fields are required"
    ensures r.Post? ==>
      && r.payload.email == f.email
      && r.payload.firstName == f.firstName
      && r.payload.lastName == f.lastName
      && r.payload.password == f.password
      && r.payload.role == f.role
      && (r.payload.institutionalCode == None <==> code == "")
      && (code != "" ==> r.payload.institutionalCode == Some(code))
  {
    if Trim(f.email) == "" || Trim(f.firstName) == "" || Trim(f.lastName) == ""
       || f.password == "" || (NeedsCode(f.role) && Trim(code) == "") then
      Invalid("All fields are required")
    else
      Post(Payload(f.email, f.firstName, f.lastName, f.password,
                   if code == "" then None else Some(code), f.role))
  }

  /** A password of spaces passes the check: it is tested for emptiness,
      not blankness. */
  lemma WhitespacePasswordAccepted(f: Form, code: string)
    requires !AllWhitespace(f.email) && !AllWhitespace(f.firstName) && !AllWhitespace(f.lastName)
    requires f.password != "" && AllWhitespace(f.password)
    requires !NeedsCode(f.role) || !AllWhitespace(code)
    ensures Submit(f, code).Post? && Submit(f, code).payload.password == f.password
  {
  }

  /** For a role that needs no code, the code never decides whether the
      form is accepted. */
  lemma CodeIrrelevantWithoutNeed(f: Form, code1: string, code2: string)
    requires !NeedsCode(f.role)
    ensures Submit(f, code1).Invalid? <==> Submit(f, code2).Invalid?
  {
  }

  /** For career and recruiter, a blank code blocks submission whatever the
      other fields hold. */
  lemma BlankCodeBlocksStaff(f: Form, code: string)
    requires NeedsCode(f.role) && AllWhitespace(code)
    ensures Submit(f, code) == Invalid("All fields are required")
  {
  }

  /** The `detail` of an error response: absent, a string, or a list of
      validation items whose `msg` may be absent. */
  datatype Detail = NoDetail | Message(text: string) | Items(msgs: seq<Option<string>>)

  /** What `Array.prototype.join` prints for one element: an absent value
      prints as nothing. */
  function MsgText(m: Option<string>): string {
    m.GetOr("")
  }

  function MsgTexts(msgs: seq<Option<string>>): (r: seq<string>)
    ensures |r| == |msgs|
    ensures forall i :: 0 <= i < |msgs| ==> r[i] == MsgText(msgs[i])
  {
    seq(|msgs|, i requires 0 <= i < |msgs| => MsgText(msgs[i]))
  }

  /** The error shown after a failed request: a list detail as its messages
      joined by ", "; a non-empty string detail as itself; anything else as
      "Registration failed". */
  function ErrorText(d: Detail): (r: string)
    ensures d.Items? && |d.msgs| == 0 ==> r == ""
    ensures d.Items? && |d.msgs| == 1 ==> r == MsgText(d.msgs[0])
    ensures d.Items? ==> r == Join(MsgTexts(d.msgs), ", ")
    ensures d.Message? && d.text != "" ==> r == d.text
    ensures d.NoDetail? || d == Message("") ==> r == "Registration failed"
  {
    match d
    case Items(msgs) =>
      Join(MsgTexts(msgs), ", ")
    case Message(text) => if text != "" then text else "Registration failed"
    case NoDetail => "Registration failed"
  }

  /** The shown text gives the messages of a list detail back: splitting it
      at commas and trimming the pieces, as the skills parser does, yields
      each message in order when every message is non-empty, trimmed and
      comma-free. */
  lemma ErrorTextReadsBack(msgs: seq<Option<string>>)
    requires forall i :: 0 <= i < |msgs| ==>
               MsgText(msgs[i]) != "" && IsTrimmed(MsgText(msgs[i])) && ',' !in MsgText(msgs[i])
    ensures CommaList.Parse(ErrorText(Items(msgs))) == MsgTexts(msgs)
  {
    var xs := MsgTexts(msgs);
    if |xs| == 0 {
      CommaList.ParseJoin(xs);
    } else {
      var padded := PadRest(xs, " ");
      assert ", " == "," + " ";
      JoinLongerSeparator(xs, ",", " ");
      assert forall i :: 0 <= i < |padded| ==> ',' !in padded[i];
      SplitJoin(padded, ',');
      forall i | 0 <= i < |xs|
        ensures Trim(padded[i]) == xs[i]
      {
        if i == 0 {
          TrimFixesTrimmed(xs[0]);
        } else {
          TrimAfterSpace(xs[i]);
        }
      }
      assert CommaList.TrimAll(padded) == xs;
      FilterKeepsAllIff(CommaList.NonEmpty, xs);
    }
  }
}

=== FILE: school_roster.dfy ===
/** `GET /students/by-school`: the student profiles of the caller's school,
    each annotated with how many jobs list the student as assigned and as
    placed. The key-value store and its JSON values are modelled as the
    sequences of values a key scan returns, each absent, malformed or a
    parsed record. */
module SchoolRoster {
  import opened Wrappers
  import opened Seqs

  /** A value fetched from the store: missing or empty, not valid JSON, or a
      parsed object. */
  datatype Raw<T> = Absent | Malformed | Object(value: T)

  /** The caller's stored user record; only its school code is read. */
  datatype Account = Account(schoolCode: Option<string>)

  /** A stored job; a missing list reads as the empty list. */
  datatype Job = Job(assignedStudents: seq<string>, placedStudents: seq<string>)

  datatype Student = Student(firstName: Option<string>, lastName: Option<string>,
                             email: Option<string>, educationLevel: Option<string>,
                             schoolCode: Option<string>)

  /** One entry of the reply; a count is absent when it would be zero. */
  datatype Entry = Entry(firstName: Option<string>, lastName: Option<string>,
                         email: Option<string>, educationLevel: Option<string>,
                         assignedJobs: Option<nat>, placedJobs: Option<nat>)

  datatype Reply = Students(students: seq<Entry>) | Refused(status: nat, detail: string)

  /** The two per-job lists that are tallied. */
  datatype Bucket = Assigned | Placed

  function Emails(job: Job, b: Bucket): seq<string> {
    match b
    case Assigned => job.assignedStudents
    case Placed => job.placedStudents
  }

  /** How often `email` is listed in bucket `b` of one stored job; a missing
      or malformed job lists nobody. */
  function Listed(job: Raw<Job>, b: Bucket, email: string): nat {
    match job
    case Object(j) => Count(Emails(j, b), email)
    case _ => 0
  }

  /** Total number of times `email` is listed in bucket `b` across `jobs`,
      each repetition within one list counting separately. */
  function Occurrences(jobs: seq<Raw<Job>>, b: Bucket, email: string): nat
    decreases |jobs|
  {
    if |jobs| == 0 then 0
    else Occurrences(jobs[..|jobs| - 1], b, email) + Listed(jobs[|jobs| - 1], b, email)
  }

  /** The parsed records among `raws`, in scan order. */
  function Parsed<T>(raws: seq<Raw<T>>): seq<T>
    decreases |raws|
  {
    if |raws| == 0 then []
    else Parsed(raws[..|raws| - 1]) + (match raws[|raws| - 1] case Object(v) => [v] case _ => [])
  }

  /** The parsed students whose school code equals `code`; two absent codes
      are equal. */
  function SchoolStudents(students: seq<Raw<Student>>, code: Option<string>): seq<Student> {
    Filter((s: Student) => s.schoolCode == code, Parsed(students))
  }

  /** The count attached for one bucket: the number of listings when the
      student has an address listed at least once, otherwise nothing. */
  function CountFor(jobs: seq<Raw<Job>>, b: Bucket, email: Option<string>): Option<nat> {
    if email.Some? && Occurrences(jobs, b, email.value) > 0
    then Some(Occurrences(jobs, b, email.value)) else None
  }

  /** The reply entry for one student: the four profile fields copied, and
      the two optional counts. */
  function EntryFor(s: Student, jobs: seq<Raw<Job>>): Entry {
    Entry(s.firstName, s.lastName, s.email, s.educationLevel,
          CountFor(jobs, Assigned, s.email), CountFor(jobs, Placed, s.email))
  }

  /** `counts.get(e, 0)`. */
  function Get0(counts: map<string, nat>, e: string): nat {
    if e in counts then counts[e] else 0
  }

  /** One pass of `counts[email] = counts.get(email, 0) + 1` over `emails`. */
  method AddAll(counts: map<string, nat>, emails: seq<string>) returns (out: map<string, nat>)
    requires forall e :: e in counts ==> counts[e] > 0
    ensures forall e :: Get0(out, e) == Get0(counts, e) + Count(emails, e)
    ensures forall e :: e in out ==> out[e] > 0
  {
    out := counts;
    var j := 0;
    while j < |emails|
      invariant 0 <= j <= |emails|
      invariant forall e :: Get0(out, e) == Get0(counts, e) + Count(emails[..j], e)
      invariant forall e :: e in out ==> out[e] > 0
    {
      var email := emails[j];
      out := out[email := Get0(out, email) + 1];
      assert emails[..j + 1][..j] == emails[..j];
      j := j + 1;
    }
    assert emails[..j] == emails;
  }

  /** Tallies are exact: present exactly for the addresses listed at least
      once, and equal to the number of listings. */
  ghost predicate Tallies(counts: map<string, nat>, jobs: seq<Raw<Job>>, b: Bucket) {
    && (forall e :: Get0(counts, e) == Occurrences(jobs, b, e))
    && (forall e :: e in counts ==> counts[e] > 0)
  }

  /** The scan over stored jobs: one pass that tallies both lists, skipping
      missing and malformed jobs. */
  method TallyJobs(jobs: seq<Raw<Job>>) returns (assignedCounts: map<string, nat>, placedCounts: map<string, nat>)
    ensures Tallies(assignedCounts, jobs, Assigned)
    ensures Tallies(placedCounts, jobs, Placed)
  {
    assignedCounts := map[];
    placedCounts := map[];
    var i := 0;
    while i < |jobs|
      invariant 0 <= i <= |jobs|
      invariant Tallies(assignedCounts, jobs[..i], Assigned)
      invariant Tallies(placedCounts, jobs[..i], Placed)
    {
      assert jobs[..i + 1][..i] == jobs[..i];
      match jobs[i] {
        case Object(job) =>
          assignedCounts := AddAll(assignedCounts, job.assignedStudents);
          placedCounts := AddAll(placedCounts, job.placedStudents);
        case _ =>
      }
      i := i + 1;
    }
    assert jobs[..i] == jobs;
  }

  /** The reply entry built from the tallies, as the handler builds it. */
  function EntryFromTallies(s: Student, assignedCounts: map<string, nat>, placedCounts: map<string, nat>)
    : Entry
  {
    var email := s.email;
    Entry(s.firstName, s.lastName, email, s.educationLevel,
          if email.Some? && email.value in assignedCounts then Some(assignedCounts[email.value]) else None,
          if email.Some? && email.value in placedCounts then Some(placedCounts[email.value]) else None)
  }

  /** Built from exact tallies, the handler's entry is the specified one. */
  lemma TalliedEntry(s: Student, jobs: seq<Raw<Job>>, assignedCounts: map<string, nat>, placedCounts: map<string, nat>)
    requires Tallies(assignedCounts, jobs, Assigned) && Tallies(placedCounts, jobs, Placed)
    ensures EntryFromTallies(s, assignedCounts, placedCounts) == EntryFor(s, jobs)
  {
  }

  /** The scan over stored students: the parsed ones of school `code`, in
      scan order, each turned into its reply entry. */
  method CollectStudents(students: seq<Raw<Student>>, code: Option<string>,
                         assignedCounts: map<string, nat>, placedCounts: map<string, nat>)
    returns (out: seq<Entry>)
    ensures |out| == |SchoolStudents(students, code)|
    ensures forall n :: 0 <= n < |out| ==>
      out[n] == EntryFromTallies(SchoolStudents(students, code)[n], assignedCounts, placedCounts)
  {
    out := [];
    var k := 0;
    while k < |students|
      invariant 0 <= k <= |students|
      invariant |out| == |SchoolStudents(students[..k], code)|
      invariant forall n :: 0 <= n < |out| ==>
        out[n] == EntryFromTallies(SchoolStudents(students[..k], code)[n], assignedCounts, placedCounts)
    {
      SchoolStudentsExtend(students, k, code);
      match students[k] {
        case Object(s) =>
          if s.schoolCode == code {
            out := out + [EntryFromTallies(s, assignedCounts, placedCounts)];
          }
        case _ =>
      }
      k := k + 1;
    }
    assert students[..k] == students;
  }

  /** The handler. A missing account is 404 and a malformed one 500;
      otherwise the reply lists exactly the parsed students of the caller's
      school in scan order, each with its profile fields and with
      `assigned_jobs`/`placed_jobs` present exactly when the address is
      listed at least once, equal to the number of listings. */
  method StudentsBySchool(account: Raw<Account>, jobs: seq<Raw<Job>>, students: seq<Raw<Student>>)
    returns (reply: Reply)
    ensures account.Absent? ==> reply == Refused(404, "User not found")
    ensures account.Malformed? ==> reply == Refused(500, "Corrupted user data")
    ensures account.Object? ==>
      && reply.Students?
      && |reply.students| == |SchoolStudents(students, account.value.schoolCode)|
      && forall k :: 0 <= k < |reply.students| ==>
           reply.students[k] == EntryFor(SchoolStudents(students, account.value.schoolCode)[k], jobs)
  {
    if account.Absent? {
      return Refused(404, "User not found");
    }
    if account.Malformed? {
      return Refused(500, "Corrupted user data");
    }
    var code := account.value.schoolCode;
    var assignedCounts, placedCounts := TallyJobs(jobs);
    var out := CollectStudents(students, code, assignedCounts, placedCounts);
    forall n | 0 <= n < |out|
      ensures out[n] == EntryFor(SchoolStudents(students, code)[n], jobs)
    {
      TalliedEntry(SchoolStudents(students, code)[n], jobs, assignedCounts, placedCounts);
    }
    return Students(out);
  }

  /** Scanning one more student adds it to the school's list exactly when it
      parses and has the school's code. */
  lemma SchoolStudentsExtend(students: seq<Raw<Student>>, k: nat, code: Option<string>)
    requires k < |students|
    ensures SchoolStudents(students[..k + 1], code)
         == SchoolStudents(students[..k], code)
            + (if students[k].Object? && students[k].value.schoolCode == code then [students[k].value] else [])
  {
    assert students[..k + 1][..k] == students[..k];
    var last: seq<Student> := match students[k] case Object(v) => [v] case _ => [];
    FilterAppend((s: Student) => s.schoolCode == code, Parsed(students[..k]), last);
  }

  /** Listings add up over concatenated scans. */
  lemma {:induction false} OccurrencesAppend(a: seq<Raw<Job>>, c: seq<Raw<Job>>, b: Bucket, email: string)
    ensures Occurrences(a + c, b, email) == Occurrences(a, b, email) + Occurrences(c, b, email)
    decreases |c|
  {
    if |c| == 0 {
      assert a + c == a;
    } else {
      assert (a + c)[..|a + c| - 1] == a + c[..|c| - 1];
      OccurrencesAppend(a, c[..|c| - 1], b, email);
    }
  }

  /** A missing or malformed job contributes nothing to either count,
      wherever it appears in the scan. */
  lemma UnparsedJobCountsNothing(a: seq<Raw<Job>>, x: Raw<Job>, c: seq<Raw<Job>>, b: Bucket, email: string)
    requires !x.Object?
    ensures Occurrences(a + [x] + c, b, email) == Occurrences(a + c, b, email)
  {
    OccurrencesAppend(a + [x], c, b, email);
    OccurrencesAppend(a, c, b, email);
    assert (a + [x])[..|a + [x]| - 1] == a;
  }

  /** An address is counted in a bucket exactly when some parsed job lists
      it in that bucket. */
  lemma {:induction false} OccurrencesPositiveIff(jobs: seq<Raw<Job>>, b: Bucket, email: string)
    ensures Occurrences(jobs, b, email) > 0
            <==> exists k :: 0 <= k < |jobs| && jobs[k].Object? && email in Emails(jobs[k].value, b)
    decreases |jobs|
  {
    if |jobs| > 0 {
      var init := jobs[..|jobs| - 1];
      var last := jobs[|jobs| - 1];
      OccurrencesPositiveIff(init, b, email);
      if last.Object? {
        CountPositiveIff(Emails(last.value, b), email);
      }
      if exists k :: 0 <= k < |jobs| && jobs[k].Object? && email in Emails(jobs[k].value, b) {
        var k :| 0 <= k < |jobs| && jobs[k].Object? && email in Emails(jobs[k].value, b);
        if k < |jobs| - 1 {
          assert init[k] == jobs[k];
        }
      }
      if Occurrences(init, b, email) > 0 {
        var k :| 0 <= k < |init| && init[k].Object? && email in Emails(init[k].value, b);
        assert jobs[k] == init[k];
      }
    }
  }
}

=== FILE: seqs.dfy ===
/** Order-preserving filtering and counting over sequences: the
    `Array.prototype.filter` and Python list comprehensions of the portal. */
module Seqs {

  /** `a` can be obtained from `b` by deleting elements, keeping order. */
  predicate IsSubsequence<T(==)>(a: seq<T>, b: seq<T>)
    decreases |b|
  {
    if |a| == 0 then true
    else if |b| == 0 then false
    else if a[0] == b[0] then IsSubsequence(a[1..], b[1..])
    else IsSubsequence(a, b[1..])
  }

  /** Number of elements of `s` satisfying `p`. */
  function CountWhere<T>(p: T -> bool, s: seq<T>): (n: nat)
    ensures n <= |s|
    decreases |s|
  {
    if |s| == 0 then 0 else (if p(s[0]) then 1 else 0) + CountWhere(p, s[1..])
  }

  /** The elements of `s` satisfying `p`, in their original order. */
  function Filter<T(==)>(p: T -> bool, s: seq<T>): (r: seq<T>)
    ensures |r| == CountWhere(p, s)
    ensures forall i :: 0 <= i < |r| ==> p(r[i]) && r[i] in s
    ensures forall i :: 0 <= i < |s| && p(s[i]) ==> s[i] in r
    ensures IsSubsequence(r, s)
    decreases |s|
  {
    if |s| == 0 then []
    else if p(s[0]) then [s[0]] + Filter(p, s[1..])
    else Filter(p, s[1..])
  }

  /** Filtering keeps everything exactly when every element passes. */
  lemma {:induction false} FilterKeepsAllIff<T>(p: T -> bool, s: seq<T>)
    ensures Filter(p, s) == s <==> forall i :: 0 <= i < |s| ==> p(s[i])
    decreases |s|
  {
    if |s| > 0 {
      FilterKeepsAllIff(p, s[1..]);
      if !p(s[0]) {
        assert |Filter(p, s)| <= |s[1..]| < |s|;
      } else {
        assert forall i :: 1 <= i < |s| ==> s[i] == s[1..][i - 1];
      }
    }
  }

  /** Filtering distributes over concatenation. */
  lemma {:induction false} FilterAppend<T>(p: T -> bool, a: seq<T>, b: seq<T>)
    ensures Filter(p, a + b) == Filter(p, a) + Filter(p, b)
    decreases |a|
  {
    if |a| > 0 {
      assert (a + b)[1..] == a[1..] + b;
      FilterAppend(p, a[1..], b);
    } else {
      assert a + b == b;
    }
  }

  /** Occurrences of `x` in `s`, counted from the back so that a loop that
      scans `s` left to right extends the count one element at a time. */
  function Count<T(==)>(s: seq<T>, x: T): nat
    decreases |s|
  {
    if |s| == 0 then 0
    else Count(s[..|s| - 1], x) + (if s[|s| - 1] == x then 1 else 0)
  }

  /** `x` occurs at least once exactly when it is an element of `s`. */
  lemma {:induction false} CountPositiveIff<T>(s: seq<T>, x: T)
    ensures Count(s, x) > 0 <==> x in s
    decreases |s|
  {
    if |s| > 0 {
      var init := s[..|s| - 1];
      CountPositiveIff(init, x);
      assert s == init + [s[|s| - 1]];
      assert x in s <==> x in init || x == s[|s| - 1];
    }
  }
}

=== FILE: student_profiles.dfy ===
/** The student profile page: the manual profile form and the multipart
    request it sends, and the CSV upload panel with its progress display. */
module StudentProfiles {
  import opened Wrappers
  import CommaList

  datatype Field = FirstName | LastName | Email | Phone | EducationLevel
                 | Skills | ExperienceSummary | Interests

  datatype Form = Form(firstName: string, lastName: string, email: string, phone: string,
                       educationLevel: string, skills: string, experienceSummary: string,
                       interests: string)

  const Blank: Form := Form("", "", "", "", "", "", "", "")

  function Get(f: Form, field: Field): string {
    match field
    case FirstName => f.firstName
    case LastName => f.lastName
    case Email => f.email
    case Phone => f.phone
    case EducationLevel => f.educationLevel
    case Skills => f.skills
    case ExperienceSummary => f.experienceSummary
    case Interests => f.interests
  }

  /** `handleChange`: the named field takes the typed value; every other
      field keeps its value. */
  function Set(f: Form, field: Field, v: string): (r: Form)
    ensures Get(r, field) == v
    ensures forall g :: g != field ==> Get(r, g) == Get(f, g)
  {
    match field
    case FirstName => f.(firstName := v)
    case LastName => f.(lastName := v)
    case Email => f.(email := v)
    case Phone => f.(phone := v)
    case EducationLevel => f.(educationLevel := v)
    case Skills => f.(skills := v)
    case ExperienceSummary => f.(experienceSummary := v)
    case Interests => f.(interests := v)
  }

  /** A file chosen in the browser, kept opaque. */
  datatype File = File(id: nat)

  /** One part of the multipart body; the skills part is the parsed list
      (its JSON text is left abstract). */
  datatype Part = Value(value: string) | SkillList(skills: seq<string>) | Attachment(file: File)

  /** The eight profile parts, in append order; the skills are parsed from
      the comma-separated field. */
  function ProfileParts(f: Form): (r: seq<(string, Part)>)
    ensures |r| == 8
  {
    [("first_name", Value(f.firstName)), ("last_name", Value(f.lastName)), ("email", Value(f.email)),
     ("phone", Value(f.phone)), ("education_level", Value(f.educationLevel)),
     ("skills", SkillList(CommaList.Parse(f.skills))),
     ("experience_summary", Value(f.experienceSummary)), ("interests", Value(f.interests))]
  }

  /** The multipart body: the profile parts, then the resume exactly when
      one is selected. */
  function Entries(f: Form, resume: Option<File>): (r: seq<(string, Part)>)
    ensures |r| == (if resume.Some? then 9 else 8)
    ensures r[..8] == ProfileParts(f)
    ensures resume.Some? ==> r[8] == ("resume", Attachment(resume.value))
  {
    var parts := ProfileParts(f);
    if resume.Some? then parts + [("resume", Attachment(resume.value))] else parts
  }

  /** The profile form's state. */
  datatype Profile = Profile(form: Form, resume: Option<File>, message: string, error: string)

  /** How `POST /students` ended: success, or an error with an optional
      `detail`. */
  datatype Outcome = Succeeded | Failed(detail: Option<string>)

  /** `handleSubmit` after the request settles: success clears all eight
      fields and the resume and shows the confirmation; failure keeps the
      form and shows the detail or "Submission failed". */
  function AfterSubmit(p: Profile, outcome: Outcome): (r: Profile)
    ensures outcome.Succeeded? ==>
      (forall g :: Get(r.form, g) == "") && r.resume.None?
      && r.message == "Student profile submitted!" && r.error == ""
    ensures outcome.Failed? ==> r.form == p.form && r.resume == p.resume && r.message == ""
    ensures outcome.Failed? && outcome.detail.Some? && outcome.detail.value != "" ==> r.error == outcome.detail.value
    ensures outcome.Failed? && (outcome.detail.None? || outcome.detail == Some("")) ==> r.error == "Submission failed"
  {
    match outcome
    case Succeeded => Profile(Blank, None, "Student profile submitted!", "")
    case Failed(d) =>
      var shown := if d.Some? && d.value != "" then d.value else "Submission failed";
      Profile(p.form, p.resume, "", shown)
  }

  /** After a successful submit the next body has the eight profile parts
      only: no resume, and an empty skill list. */
  lemma SubmitThenEntries(p: Profile)
    ensures var q := AfterSubmit(p, Succeeded);
            var e := Entries(q.form, q.resume);
            |e| == 8 && e[5] == ("skills", SkillList([]))
            && forall k :: 0 <= k < 8 && k != 5 ==> e[k].1 == Value("")
  {
  }

  /** The CSV upload panel's state. */
  datatype Upload = Upload(csv: Option<File>, progress: int, result: string, error: string)

  /** `handleFileChange`: a new choice (possibly none) resets progress,
      result and error. */
  function ChooseCsv(u: Upload, chosen: Option<File>): (r: Upload)
    ensures r.csv == chosen && r.progress == 0 && r.result == "" && r.error == ""
  {
    Upload(chosen, 0, "", "")
  }

  /** `handleUpload` up to the request: without a chosen file nothing
      happens and nothing is sent; otherwise progress, result and error are
      reset and the file is sent. */
  function StartUpload(u: Upload): (r: (Upload, bool))
    ensures u.csv.None? ==> r == (u, false)
    ensures u.csv.Some? ==> r.1 && r.0.csv == u.csv && r.0.progress == 0 && r.0.result == "" && r.0.error == ""
  {
    if u.csv.None? then (u, false) else (u.(progress := 0, result := "", error := ""), true)
  }

  /** `Math.round(loaded * 100 / total)` for a non-zero total, on exact
      rationals: the nearest integer, halves rounding up. */
  function Percent(loaded: nat, total: nat): (r: int)
    requires total > 0
    ensures 2 * r * total <= 200 * loaded + total < 2 * (r + 1) * total
    ensures loaded <= total ==> 0 <= r <= 100
  {
    var r := (200 * loaded + total) / (2 * total);
    PercentBounds(loaded, total);
    r
  }

  lemma PercentBounds(loaded: nat, total: nat)
    requires total > 0
    ensures var r := (200 * loaded + total) / (2 * total);
            2 * r * total <= 200 * loaded + total < 2 * (r + 1) * total
            && (loaded <= total ==> 0 <= r <= 100)
  {
    var a := 200 * loaded + total;
    var b := 2 * total;
    var r := a / b;
    assert a == r * b + a % b && 0 <= a % b < b;
    TwiceTimes(r, total);
    TwiceTimes(r + 1, total);
    assert (r + 1) * b == r * b + b;
    if loaded <= total {
      assert a < 101 * b;
      QuotientBelow(r, 101, b);
    }
  }

  lemma TwiceTimes(r: int, total: int)
    ensures 2 * r * total == r * (2 * total)
  {
  }

  /** From `r * b < k * b` with `b` positive, `r < k`. */
  lemma QuotientBelow(r: int, k: int, b: int)
    requires b > 0 && r * b < k * b
    ensures r < k
  {
  }

  /** The `onUploadProgress` callback: a zero or absent total leaves the
      progress as it is. */
  function OnProgress(u: Upload, loaded: nat, total: nat): (r: Upload)
    ensures total == 0 ==> r == u
    ensures total > 0 ==> r == u.(progress := Percent(loaded, total))
  {
    if total == 0 then u else u.(progress := Percent(loaded, total))
  }

  /** While the browser reports no more than the total, the shown progress
      stays a percentage. */
  lemma ProgressStaysPercentage(u: Upload, loaded: nat, total: nat)
    requires 0 <= u.progress <= 100
    requires loaded <= total
    ensures 0 <= OnProgress(u, loaded, total).progress <= 100
  {
  }

  /** After a choice, pressing upload sends exactly when a file was chosen. */
  lemma ChooseThenStart(u: Upload, chosen: Option<File>)
    ensures StartUpload(ChooseCsv(u, chosen)).1 <==> chosen.Some?
  {
  }

  /** What can happen on the upload panel: a file choice, the upload
      button, or a progress report from the browser. */
  datatype UploadEvent = Choose(chosen: Option<File>) | Start | Progress(loaded: nat, total: nat)

  function Handle(u: Upload, ev: UploadEvent): Upload {
    match ev
    case Choose(chosen) => ChooseCsv(u, chosen)
    case Start => StartUpload(u).0
    case Progress(loaded, total) => OnProgress(u, loaded, total)
  }

  /** The panel after a run of events, oldest first. */
  function Replay(u: Upload, events: seq<UploadEvent>): Upload
    decreases |events|
  {
    if |events| == 0 then u else Replay(Handle(u, events[0]), events[1..])
  }

  /** A report never claims more than the total. */
  predicate Honest(ev: UploadEvent) {
    ev.Progress? ==> ev.loaded <= ev.total
  }

  /** From a percentage, every run of honest events leaves the shown
      progress a percentage. */
  lemma {:induction false} ProgressStaysPercentageThroughout(u: Upload, events: seq<UploadEvent>)
    requires 0 <= u.progress <= 100
    requires forall i :: 0 <= i < |events| ==> Honest(events[i])
    ensures 0 <= Replay(u, events).progress <= 100
    decreases |events|
  {
    if |events| > 0 {
      var ev := events[0];
      assert Honest(ev);
      if ev.Progress? {
        ProgressStaysPercentage(u, ev.loaded, ev.total);
      }
      assert forall i :: 0 <= i < |events[1..]| ==> Honest(events[1..][i]) by {
        forall i | 0 <= i < |events[1..]|
          ensures Honest(events[1..][i])
        {
          assert events[1..][i] == events[i + 1];
        }
      }
      ProgressStaysPercentageThroughout(Handle(u, ev), events[1..]);
    }
  }
}

=== FILE: text.dfy ===
/** The JavaScript string primitives the portal's client relies on:
    `trim`, `split` on one character, `join`, `toLowerCase` and `includes`. */
module Text {

  /** The characters `String.prototype.trim` strips: the ECMAScript
      WhiteSpace and LineTerminator code points. */
  predicate IsWhitespace(c: char) {
    || c == '\t' || c == '\n' || c == '\U{000B}' || c == '\U{000C}' || c == '\r'
    || c == ' ' || c == '\U{00A0}' || c == '\U{1680}'
    || ('\U{2000}' <= c <= '\U{200A}')
    || c == '\U{2028}' || c == '\U{2029}' || c == '\U{202F}' || c == '\U{205F}'
    || c == '\U{3000}' || c == '\U{FEFF}'
  }

  predicate AllWhitespace(s: string) {
    forall k :: 0 <= k < |s| ==> IsWhitespace(s[k])
  }

  /** A string `trim` leaves alone: empty, or starting and ending with a
      non-whitespace character. */
  predicate IsTrimmed(s: string) {
    |s| == 0 || (!IsWhitespace(s[0]) && !IsWhitespace(s[|s| - 1]))
  }

  /** Length of the leading whitespace run. */
  function LeadingWhitespace(s: string): (n: nat)
    ensures n <= |s|
    ensures AllWhitespace(s[..n])
    ensures n < |s| ==> !IsWhitespace(s[n])
    decreases |s|
  {
    if |s| == 0 || !IsWhitespace(s[0]) then 0
    else
      var n := 1 + LeadingWhitespace(s[1..]);
      assert forall k :: 1 <= k < n ==> s[..n][k] == s[1..][..n - 1][k - 1];
      n
  }

  /** Start of the trailing whitespace run. */
  function TrailingWhitespaceStart(s: string): (n: nat)
    ensures n <= |s|
    ensures AllWhitespace(s[n..])
    ensures n > 0 ==> !IsWhitespace(s[n - 1])
    decreases |s|
  {
    if |s| == 0 || !IsWhitespace(s[|s| - 1]) then |s|
    else
      var n := TrailingWhitespaceStart(s[..|s| - 1]);
      assert forall k :: n <= k < |s| - 1 ==> s[k] == s[..|s| - 1][k];
      n
  }

  /** `s.trim()`: `s` without its leading and trailing whitespace. */
  function Trim(s: string): (r: string)
    ensures |r| == 0 <==> AllWhitespace(s)
    ensures IsTrimmed(r)
    ensures exists i :: 0 <= i <= |s| - |r| && r == s[i..i + |r|]
                     && AllWhitespace(s[..i]) && AllWhitespace(s[i + |r|..])
  {
    var a := LeadingWhitespace(s);
    var b := TrailingWhitespaceStart(s);
    if a == |s| then
      assert s[..a] == s;
      assert s[a..a] == "";
      ""
    else
      assert a < b;
      assert !AllWhitespace(s) by {
        assert !IsWhitespace(s[a]);
      }
      var r := s[a..b];
      assert r == s[a..a + |r|];
      r
  }

  /** A trimmed string is its own trim, so `trim` is idempotent. */
  lemma TrimFixesTrimmed(s: string)
    requires IsTrimmed(s)
    ensures Trim(s) == s
  {
  }

  /** A trimmed non-empty string behind one space trims back to itself. */
  lemma TrimAfterSpace(x: string)
    requires x != "" && IsTrimmed(x)
    ensures Trim(" " + x) == x
  {
    var s := " " + x;
    assert s[1..] == x;
    assert LeadingWhitespace(s) == 1;
    assert TrailingWhitespaceStart(s) == |s|;
    assert s[1..|s|] == x;
  }

  /** `s.split(sep)` for a one-character separator: the maximal runs between
      separators, with an empty piece wherever two separators touch or a
      separator starts or ends `s`. */
  function Split(s: string, sep: char): (r: seq<string>)
    ensures |r| >= 1
    ensures forall i :: 0 <= i < |r| ==> sep !in r[i]
    ensures r[0] <= s
    ensures |r| == 1 <==> sep !in s
    decreases |s|
  {
    if |s| == 0 then [""]
    else
      var rest := Split(s[1..], sep);
      if s[0] == sep then [""] + rest
      else [[s[0]] + rest[0]] + rest[1..]
  }

  /** The summed lengths of `parts`. */
  function TotalLength(parts: seq<string>): nat
    decreases |parts|
  {
    if |parts| == 0 then 0 else |parts[0]| + TotalLength(parts[1..])
  }

  /** `parts.join(sep)`; an empty array joins to the empty string. The
      first piece leads, and the text is the pieces plus one separator
      between each neighbouring pair. */
  function Join(parts: seq<string>, sep: string): (r: string)
    ensures |parts| == 0 ==> r == ""
    ensures |parts| >= 1 ==> parts[0] <= r
    ensures |parts| >= 1 ==> |r| == TotalLength(parts) + (|parts| - 1) * |sep|
    decreases |parts|
  {
    if |parts| == 0 then ""
    else if |parts| == 1 then parts[0]
    else parts[0] + sep + Join(parts[1..], sep)
  }

  lemma JoinPrepend(x: string, parts: seq<string>, sep: string)
    requires |parts| >= 1
    ensures Join([x + parts[0]] + parts[1..], sep) == x + Join(parts, sep)
  {
  }

  /** Joining the pieces of a split with the same separator gives back the
      original string. */
  lemma {:induction false} JoinSplit(s: string, sep: char)
    ensures Join(Split(s, sep), [sep]) == s
    decreases |s|
  {
    if |s| > 0 {
      var rest := Split(s[1..], sep);
      JoinSplit(s[1..], sep);
      if s[0] == sep {
        assert ([""] + rest)[1..] == rest;
      } else {
        JoinPrepend([s[0]], rest, [sep]);
      }
    }
  }

  /** The first piece of a split runs up to the first separator: it is the
      whole string, or a separator follows it. */
  lemma SplitFirstPiece(s: string, sep: char)
    ensures var p := Split(s, sep)[0];
            |p| == |s| || s[|p|] == sep
  {
  }

  /** The second piece of a split follows the first piece and one
      separator, and is itself followed by the end or by a separator. */
  lemma SplitSecondPiece(s: string, sep: char)
    requires |Split(s, sep)| > 1
    ensures var parts := Split(s, sep);
            exists b :: s == parts[0] + [sep] + parts[1] + b && (b == [] || b[0] == sep)
  {
    var parts := Split(s, sep);
    JoinSplit(s, sep);
    var rest := parts[1..];
    assert s == parts[0] + [sep] + Join(rest, [sep]);
    if |rest| == 1 {
      assert s == parts[0] + [sep] + parts[1] + [];
    } else {
      var b := [sep] + Join(rest[1..], [sep]);
      assert Join(rest, [sep]) == parts[1] + b;
      assert s == parts[0] + [sep] + parts[1] + b;
    }
  }

  /** A string without the separator splits into itself alone. */
  lemma {:induction false} SplitWithoutSeparator(p: string, sep: char)
    requires sep !in p
    ensures Split(p, sep) == [p]
    decreases |p|
  {
    if |p| > 0 {
      SplitWithoutSeparator(p[1..], sep);
      assert [p[0]] + p[1..] == p;
    }
  }

  /** Splitting at the first separator peels off the piece before it. */
  lemma {:induction false} SplitAtSeparator(p: string, sep: char, t: string)
    requires sep !in p
    ensures Split(p + [sep] + t, sep) == [p] + Split(t, sep)
    decreases |p|
  {
    var s := p + [sep] + t;
    if |p| == 0 {
      assert s[1..] == t;
    } else {
      assert s[1..] == p[1..] + [sep] + t;
      SplitAtSeparator(p[1..], sep, t);
      assert [p[0]] + p[1..] == p;
    }
  }

  /** Every piece but the first with `pad` in front. */
  function PadRest(parts: seq<string>, pad: string): (r: seq<string>)
    ensures |r| == |parts|
    ensures |parts| > 0 ==> r[0] == parts[0]
    ensures forall i :: 1 <= i < |parts| ==> r[i] == pad + parts[i]
  {
    seq(|parts|, i requires 0 <= i < |parts| => if i == 0 then parts[0] else pad + parts[i])
  }

  /** Joining with `sep + pad` is joining with `sep` after padding every
      piece but the first. */
  lemma {:induction false} JoinLongerSeparator(parts: seq<string>, sep: string, pad: string)
    ensures Join(parts, sep + pad) == Join(PadRest(parts, pad), sep)
    decreases |parts|
  {
    if |parts| >= 2 {
      var tail := parts[1..];
      var pt := PadRest(tail, pad);
      JoinLongerSeparator(tail, sep, pad);
      JoinPrepend(pad, pt, sep);
      var pp := PadRest(parts, pad);
      assert pp[1..] == [pad + pt[0]] + pt[1..];
      assert (sep + pad) + Join(tail, sep + pad) == sep + (pad + Join(pt, sep));
    }
  }

  /** Splitting a join of separator-free pieces recovers the pieces. */
  lemma {:induction false} SplitJoin(parts: seq<string>, sep: char)
    requires |parts| >= 1
    requires forall i :: 0 <= i < |parts| ==> sep !in parts[i]
    ensures Split(Join(parts, [sep]), sep) == parts
    decreases |parts|
  {
    if |parts| == 1 {
      SplitWithoutSeparator(parts[0], sep);
    } else {
      SplitJoin(parts[1..], sep);
      SplitAtSeparator(parts[0], sep, Join(parts[1..], [sep]));
      assert [parts[0]] + parts[1..] == parts;
    }
  }

  /** ASCII lower-casing of one character. */
  function LowerChar(c: char): char {
    if 'A' <= c <= 'Z' then (c as int + 32) as char else c
  }

  /** `s.toLowerCase()`, restricted to the ASCII letters. */
  function ToLower(s: string): (r: string)
    ensures |r| == |s|
    ensures forall i :: 0 <= i < |s| ==> r[i] == LowerChar(s[i])
  {
    seq(|s|, i requires 0 <= i < |s| => LowerChar(s[i]))
  }

  /** Lower-casing twice is lower-casing once. */
  lemma ToLowerIdempotent(s: string)
    ensures ToLower(ToLower(s)) == ToLower(s)
  {
  }

  /** `s.includes(q)`: `q` is a prefix of `s` or of one of its suffixes.
      Only a query no longer than `s` can be included, and the empty query
      always is. */
  predicate Includes(s: string, q: string)
    ensures Includes(s, q) ==> |q| <= |s|
    ensures q == "" ==> Includes(s, q)
    decreases |s|
  {
    q <= s || (|s| > 0 && Includes(s[1..], q))
  }

  /** `q` occurs in `s` starting at index `i`. */
  predicate OccursAt(s: string, q: string, i: int) {
    0 <= i <= |s| - |q| && s[i..i + |q|] == q
  }

  /** `Includes` holds exactly when `q` occurs in `s` at some position. */
  lemma {:induction false} IncludesIff(s: string, q: string)
    ensures Includes(s, q) <==> exists i :: OccursAt(s, q, i)
    decreases |s|
  {
    if q <= s {
      assert OccursAt(s, q, 0);
    } else if |s| > 0 {
      IncludesIff(s[1..], q);
      if Includes(s[1..], q) {
        var j :| OccursAt(s[1..], q, j);
        assert s[1..][j..j + |q|] == s[j + 1..j + 1 + |q|];
        assert OccursAt(s, q, j + 1);
      }
      if exists i :: OccursAt(s, q, i) {
        var i :| OccursAt(s, q, i);
        assert i != 0;
        assert OccursAt(s[1..], q, i - 1);
      }
    }
  }
}

=== FILE: tokens.dfy ===
/** JSON Web Tokens as the portal uses them, kept opaque: the backend signs a
    set of claims, and the client decodes any well-formed token whose
    payload is a claims object back to its claims, without checking the
    signature. Every other text, and a token whose payload is JSON `null`,
    counts as undecodable: the pages that read a field of the decoded value
    do so inside a `try`, and `null` sends them down the same path as a
    failed decode. */
module Tokens {
  import opened Wrappers

  /** The claims a decoded token exposes; each may be absent. `exp` is in
      seconds since the epoch. */
  datatype Claims = Claims(sub: Option<string>, role: Option<string>, exp: Option<int>)

  /** A token string: a well-formed token over some claims, whoever made it
      (its signature is not checked), or any other text, which `jwtDecode`
      rejects. */
  datatype Token = Decodable(claims: Claims) | Garbage(text: string)

  /** `jwt.encode` of a payload with `sub`, `role` and `exp`. */
  function Encode(sub: string, role: string, exp: int): Token {
    Decodable(Claims(Some(sub), Some(role), Some(exp)))
  }

  /** `jwtDecode`: the claims of a well-formed token, `None` where it throws. */
  function Decode(t: Token): Option<Claims> {
    match t
    case Decodable(c) => Some(c)
    case Garbage(_) => None
  }

  /** What a page reads from local storage; `None` stands for both a missing
      item and the empty string, which JavaScript treats alike as falsy. */
  type Stored = Option<Token>

  /** The role of pages that start from `''` and overwrite it with the
      decoded `role` claim inside a `try`: no token and an undecodable token
      both leave `''`; a decoded token without a role claim gives `None`. */
  function CaughtRole(stored: Stored): (r: Option<string>)
    ensures stored.None? ==> r == Some("")
    ensures stored.Some? && Decode(stored.value).None? ==> r == Some("")
    ensures stored.Some? && Decode(stored.value).Some? ==> r == Decode(stored.value).value.role
  {
    match stored
    case None => Some("")
    case Some(t) =>
      match Decode(t)
      case None => Some("")
      case Some(c) => c.role
  }
}

=== FILE: user_registry.dfy ===
/** The in-memory account service: a map from e-mail address to user record
    with three operations, `register`, `login` and `approve`. Each operation
    takes the current map and returns its HTTP reply together with the next
    map, so the service is a state machine over `Store`. */
module UserRegistry {
  import opened Wrappers
  import opened Tokens

  /** A bcrypt digest, idealised: it remembers its salt and the password it
      was computed from, and only that password checks against it. */
  datatype Digest = Digest(salt: nat, password: string)

  /** `bcrypt.hashpw(password, salt)`; the random salt is a parameter. */
  function HashPw(password: string, salt: nat): Digest {
    Digest(salt, password)
  }

  /** `bcrypt.checkpw(password, digest)`. */
  predicate CheckPw(password: string, d: Digest) {
    d.password == password
  }

  datatype User = User(firstName: string, lastName: string, school: string,
                       password: Digest, role: string, approved: bool)

  type Store = map<string, User>

  /** A successful body, an issued token, or an `HTTPException`. */
  datatype Reply = Message(text: string) | Issued(token: Token) | Refused(status: nat, detail: string)

  /** Tokens expire one hour after they are issued. */
  const TokenLifetime: int := 3600

  /** `POST /register`: refuse a known address; otherwise store a new,
      unapproved record with role `"user"` and the hashed password. */
  function Register(users: Store, email: string, firstName: string, lastName: string,
                    school: string, password: string, salt: nat): (out: (Reply, Store))
    ensures email in users ==> out == (Refused(400, "User already exists"), users)
    ensures email !in users ==>
      && out.0 == Message("Registration submitted. Awaiting admin approval")
      && out.1.Keys == users.Keys + {email}
      && (forall e :: e in users ==> out.1[e] == users[e])
      && out.1[email].firstName == firstName
      && out.1[email].lastName == lastName
      && out.1[email].school == school
      && out.1[email].role == "user"
      && !out.1[email].approved
      && (forall p :: CheckPw(p, out.1[email].password) <==> p == password)
  {
    if email in users then
      (Refused(400, "User already exists"), users)
    else
      var hashed := HashPw(password, salt);
      var user := User(firstName, lastName, school, hashed, "user", false);
      (Message("Registration submitted. Awaiting admin approval"), users[email := user])
  }

  /** `POST /login`: credentials are checked before approval, and an
      approved user gets a token for its address and role that expires one
      hour after `now` (seconds since the epoch). */
  function Login(users: Store, email: string, password: string, now: int): (out: (Reply, Store))
    ensures out.1 == users
    ensures out.0 == Refused(401, "Invalid credentials")
            <==> email !in users || !CheckPw(password, users[email].password)
    ensures out.0 == Refused(403, "User not approved")
            <==> email in users && CheckPw(password, users[email].password) && !users[email].approved
    ensures out.0.Issued?
            <==> email in users && CheckPw(password, users[email].password) && users[email].approved
    ensures out.0.Issued? ==>
              Decode(out.0.token) == Some(Claims(Some(email), Some(users[email].role), Some(now + TokenLifetime)))
  {
    if email !in users || !CheckPw(password, users[email].password) then
      (Refused(401, "Invalid credentials"), users)
    else if !users[email].approved then
      (Refused(403, "User not approved"), users)
    else
      (Issued(Encode(email, users[email].role, now + TokenLifetime)), users)
  }

  /** `POST /approve`: an unknown address is refused; otherwise only the
      `approved` flag of that one record changes, to true. */
  function Approve(users: Store, email: string): (out: (Reply, Store))
    ensures email !in users ==> out == (Refused(404, "User not found"), users)
    ensures email in users ==>
      && out.0 == Message(email + " approved")
      && out.1.Keys == users.Keys
      && out.1[email].approved
      && out.1[email].(approved := users[email].approved) == users[email]
      && (forall e :: e in users && e != email ==> out.1[e] == users[e])
  {
    if email !in users then
      (Refused(404, "User not found"), users)
    else
      (Message(email + " approved"), users[email := users[email].(approved := true)])
  }

  /** Approving twice is approving once, for the store and for the reply. */
  lemma ApproveIdempotent(users: Store, email: string)
    ensures Approve(Approve(users, email).1, email) == Approve(users, email)
  {
    if email in users {
      var once := Approve(users, email).1;
      assert once[email := once[email].(approved := true)] == once;
    }
  }

  /** Register, then approve, then log in with the same password: the login
      succeeds with a token naming the address and the role `"user"`. */
  lemma RegisterApproveLogin(users: Store, email: string, firstName: string, lastName: string,
                             school: string, password: string, salt: nat, now: int)
    requires email !in users
    ensures var registered := Register(users, email, firstName, lastName, school, password, salt).1;
            var approved := Approve(registered, email).1;
            Login(approved, email, password, now).0 == Issued(Encode(email, "user", now + TokenLifetime))
  {
  }

  /** One request to the service. */
  datatype Request =
    | RegisterRequest(email: string, firstName: string, lastName: string, school: string,
                      password: string, salt: nat)
    | LoginRequest(email: string, password: string, now: int)
    | ApproveRequest(email: string)

  function Step(users: Store, req: Request): (Reply, Store) {
    match req
    case RegisterRequest(e, f, l, s, p, salt) => Register(users, e, f, l, s, p, salt)
    case LoginRequest(e, p, now) => Login(users, e, p, now)
    case ApproveRequest(e) => Approve(users, e)
  }

  /** The store after serving `reqs` in order. */
  function Run(users: Store, reqs: seq<Request>): Store
    decreases |reqs|
  {
    if |reqs| == 0 then users else Run(Step(users, reqs[0]).1, reqs[1..])
  }

  /** Nothing is ever removed or overwritten: along any sequence of requests
      a registered address stays registered, its record changes at most in
      its `approved` flag, and an approved user stays approved. */
  lemma {:induction false} RecordsPersist(users: Store, reqs: seq<Request>, email: string)
    requires email in users
    ensures email in Run(users, reqs)
    ensures Run(users, reqs)[email].(approved := users[email].approved) == users[email]
    ensures users[email].approved ==> Run(users, reqs)[email].approved
    decreases |reqs|
  {
    if |reqs| > 0 {
      var next := Step(users, reqs[0]).1;
      assert email in next;
      assert next[email].(approved := users[email].approved) == users[email];
      RecordsPersist(next, reqs[1..], email);
    }
  }

  /** Every record the service creates has role `"user"`, so a store that
      starts out that way stays that way. */
  lemma {:induction false} RolesStayUser(users: Store, reqs: seq<Request>)
    requires forall e :: e in users ==> users[e].role == "user"
    ensures forall e :: e in Run(users, reqs) ==> Run(users, reqs)[e].role == "user"
    decreases |reqs|
  {
    if |reqs| > 0 {
      RolesStayUser(Step(users, reqs[0]).1, reqs[1..]);
    }
  }
}

=== FILE: wrappers.dfy ===
/** Optional values, standing in for JavaScript's `undefined`/`null` and
    Python's `None` wherever the portal reads a field that may be absent. */
module Wrappers {

  datatype Option<+T> = None | Some(value: T) {

    /** The value when present, otherwise `default` (JavaScript's `??`). */
    function GetOr(default: T): T {
      match this
      case Some(v) => v
      case None => default
    }
  }
}
